=== FILE: README.md ===
# Fixture and settings core of the server's database tool

The server ships a Python administration tool (`tools/`) for its MySQL/MariaDB
database. Most of it shells out to `mysql`, `mysqladmin` and `mysqldump`. The
logic it owns is text processing, and that is what this Dafny project models
and proves things about:

- **`Database.export_table`**: the fixture rewriter. It walks a table's `.sql`
  fixture file line by line. It collects the `SET @name = value;`
  declarations. It rebuilds every ``INSERT INTO `table` VALUES (`` line from
  the next database row, encoding each value as SQL literal text. Everything
  else is kept. Any exception leaves the file unwritten (modules `Export`,
  `ValueCodec`, `Symbols`, `Numbers`, `Text`).
- **`Database.fetch_files`**: the list of `.sql` files an update imports.
  Changed files come from a git diff, or else from a listing of `sql/` minus
  the protected tables. The list is sorted, `triggers.sql` is moved last, and
  the files named by `modules/init.txt` follow (modules `Database`,
  `Sorting`, `Paths`).
- **`Database.fetch_errors`**, the backup file name, and the protected
  table list (module `Database`).
- **`Common.populate_settings`**: the settings loader. Each file of
  `settings/default/` and then of `settings/` feeds `key = value` lines into
  the group named after the file. Later files win key by key (module
  `Settings`).

Python's semantics are spelled out where they matter:

- `str.strip` over the full `isspace` set;
- `split(c)`, `split()`, `split(sep)[0]` and `rsplit(sep)[0]` as separate
  functions (the last two differ on runs of dashes);
- `str(int)`, and `int(str)` with signs, whitespace and digit-group
  underscores;
- `&` on unbounded two's-complement integers;
- `posixpath.join`;
- `list.sort` in code-point order, with a proof that the sorted arrangement
  is unique;
- dict insertion order for the declaration table.

Reading the database, the files and git happens outside the model. Rows,
file lines, the diff, the directory listings and the glob results are
parameters.

Behaviour of the code worth knowing:

- Only the `npc_list` name column falls back to hex when unprintable. Every
  other non-empty binary value is always written as hex.
- A rebuilt line without `--` gets a plain `"\n"`, so any text after `);`
  is lost. (The file is read in text mode, so `readlines` has already turned
  a `\r\n` ending into `\n`.) A line with `--` keeps everything after its
  first `);`.
- The exported literals do not always read back in MySQL. See
  `NpcNameQuoteUnescaped` and "## Left out".
- Module files come after `triggers.sql`. So `triggers.sql` is last only
  among the `sql/` files.
- `fetch_files` does not add the missing tables itself. Its callers do.
- The settings loader stops a file at an empty line (`common.py:98-99`).
  `readlines()` never yields an empty string, since every line but the last
  keeps its newline and an empty file yields no lines. So that branch cannot
  be reached in Python. The model keeps it as the `Stop` result of
  `Settings.ParseLine` for an empty line, which no line `readlines()` yields
  can be.

Two quirks of the code are reproduced and stated as lemmas:

- An indented INSERT line is matched after stripping but cut before
  stripping, so its rebuilt head loses the end of `VALUES (`
  (`Export.IndentedInsertHead`).
- A printable `npc_list` name that holds a quote gives a broken literal
  (`ValueCodec.NpcNameQuoteUnescaped`).

## Model

| member | source | states |
|---|---|---|
| Export.FileAfterExport | tools/utils/database.py:276-389 | the file after an export has as many lines as before and every non-INSERT line unchanged; on any exception it is exactly the file as read |
| Export.ExportKeepsLineCount | tools/utils/database.py:286-378 | a successful export produces one output line per input line |
| Export.ExportCopiesOtherLines | tools/utils/database.py:376-378 | every line that is not an INSERT line for the table is copied verbatim |
| Export.ExportFillsInsertsInOrder | tools/utils/database.py:286-375 | the INSERT line with k INSERT lines above it is rebuilt from `rows[k]`, using the declarations made above it; enough rows and well-formed declarations exist for it |
| Export.ExportFailsWhenRowsRunOut | tools/utils/database.py:301-303 | with more INSERT lines than rows the export raises and the file is left as it was |
| Export.ParseDeclaration | tools/utils/database.py:291-295 | reading a `SET @` line fails exactly when the stripped line has no `=`; the name read is non-empty and starts with `@` |
| Export.DeclarationRoundTrip | tools/utils/database.py:291-295 | `SET <name> = <value>; -- <comment>` is read back as the key `value` for the name `name`, for a one-word `@` name, a trimmed value free of `=`, `;` and `--`, and any comment (one holding `=` too, since only the text between the first two `=` is read) |
| Export.DeclarationDropsSemicolon | tools/utils/database.py:294 | a `;` inside the value is removed: `SET @x = a;b;` keys on `ab` |
| Export.DeclarationParts | tools/utils/database.py:291-295 | a declaration line reads back as its value with every `;` removed, paired with its name, whatever its comment holds |
| Export.InsertHead | tools/utils/database.py:366 | the kept head of a rebuilt line is a prefix of the original line, as long as the matched pattern |
| Export.IndentedInsertHead | tools/utils/database.py:297-366 | for a line indented by `pad`, the kept head is `pad` plus the statement's first `|pattern| - |pad|` characters, so indentation cuts into `VALUES (` |
| Export.KeptTail | tools/utils/database.py:367-373 | a line without `--` ends in a plain newline; a line with `--` keeps everything after its first `);`, and raises when it has no `);` |
| Export.EncodeColumnsEach | tools/utils/database.py:304-364 | a row encodes exactly when every value does, and entry `i` is the encoding of `row[i]` as column `i` |
| ValueCodec.EncodeBytes | tools/utils/database.py:310-331 | a binary value is written as `0x` hex exactly when it is non-empty and not a printable `npc_list` name; otherwise it is a quoted literal |
| ValueCodec.IsPrintableText | tools/utils/database.py:314-319 | the text test holds exactly when every byte lies in 32..126 |
| ValueCodec.Latin1 | tools/utils/database.py:322 | `decode("latin_1")` maps each byte to the character with that code |
| ValueCodec.HexRoundTrip | tools/utils/database.py:326-331 | the upper-case hex text reads back as the original bytes |
| ValueCodec.BytesLiteralRoundTrip | tools/utils/database.py:310-331 | each binary literal is decoded back to its bytes by the model's reader (hex after `0x`, character codes between quotes, no escapes) |
| ValueCodec.NpcNameQuoteUnescaped | tools/utils/database.py:320-323 | the name `O'N` is written `'O'N'`, which a reader of quoted literals rejects |
| ValueCodec.QuoteTextRoundTrip | tools/utils/database.py:333-335 | a string's quoted literal reads back as the string when `\'` is the one escape |
| ValueCodec.MaskNames | tools/utils/database.py:345-350 | the bitmask expansion succeeds exactly when every declared key parses as an integer; a failure names a key `int()` rejects |
| ValueCodec.MaskNamesMembers | tools/utils/database.py:346-349 | a declared name is listed exactly when its value shares a set bit with the field |
| ValueCodec.MaskNamesInOrder | tools/utils/database.py:347-349 | names are listed in declaration order: two runs of declarations list the first run's names, then the second's |
| ValueCodec.ZeroMaskListsNothing | tools/utils/database.py:348 | a zero field lists no name |
| ValueCodec.EncodeIntMeaning | tools/utils/database.py:338-363 | only the `pet_skills` bitmask column can fail; a `mob_droplist` drop column gives the declared name when there is one; every other integer reads back as itself |
| ValueCodec.EncodeValueMeaning | tools/utils/database.py:305-363 | `None` is `NULL`; only a bitmask integer can fail; binary values, strings and ordinary integers are recovered from their literal by the readers above |
| Symbols.Put | tools/utils/database.py:295 | a new key is appended; an existing key keeps its place in the key order |
| Symbols.PutLookup | tools/utils/database.py:295 | after the assignment the key reads as the new name and every other key as before |
| Symbols.PutKeepsKeysDistinct | tools/utils/database.py:295 | the declaration table never holds a key twice |
| Symbols.Lookup | tools/utils/database.py:342-344 | a lookup succeeds exactly for a present key and returns a name stored under it |
| Numbers.DecimalRoundTrip | tools/utils/database.py:342-348 | `int(str(n)) == n`, linking the drop-rate lookup by text to the bitmask's `int()` of the keys |
| Numbers.BitAndBits | tools/utils/database.py:348 | bit `k` of `a & b` is set exactly when it is set in both |
| Numbers.BitAndNonZero | tools/utils/database.py:348 | `a & b` is truthy exactly when `a` and `b` share a set bit |
| Text.HasLowerPrefixMeaning | tools/utils/database.py:297-299 | the recursive match is `line.lower().startswith(pattern)` |
| Text.RSplitHead | tools/utils/common.py:112 | `rsplit("--")[0]` is a prefix free of `--`, followed in the input by `--` when shorter |
| Text.RSplitHeadAt | tools/utils/common.py:112 | `rsplit("--")[0]` of `h + "--" + t` is `h` when that `--` is isolated: `h` holds no `--` and does not end in `-`, and `t` does not start with `-` |
| Text.RSplitHeadOnDashRun | tools/utils/common.py:112 | on `"a ---b"`, `rsplit("--")[0]` gives `"a -"` while `split("--")[0]` gives `"a "` |
| Settings.ParseLine | tools/utils/common.py:97-122 | an empty line stops the file; a line without `=` only records the group; a line with `=` is skipped or assigns a trimmed key with no `=`, no newline and no leading `--` |
| Settings.SettingLineRoundTrip | tools/utils/common.py:100-122 | the line `key = "text",` reads back as that key and text; the text may hold `=` and quotes |
| Settings.SettingCommentRoundTrip | tools/utils/common.py:100-122 | the line `key = "text", -- comment` reads back as that key and text: the comment is cut off whatever it holds, including `=`, quotes and more dashes |
| Settings.CommentedKeyIsSkipped | tools/utils/common.py:108-110 | a key starting with `--` sets nothing |
| Settings.PeelQuoted | tools/utils/common.py:113-121 | a value written as `"text",` peels back to `text` |
| Settings.PeelBare | tools/utils/common.py:113-121 | a value with no leading quote, trailing comma or trailing quote is kept |
| Settings.ApplyLinesLastWriter | tools/utils/common.py:96-123 | after a file's line loop each key holds its last assignment in the file, or its earlier value; the group is stored exactly when some line before the first empty one is not a commented-out key |
| Settings.GroupKeyOfName | tools/utils/common.py:93 | a file name of at least four characters feeds the group named by the file name without its extension |
| Settings.LoadDirectoryLastWriter | tools/utils/common.py:88-123 | after a directory, each setting holds the last value any of its files assigned, in listing order, or its earlier value |
| Settings.PopulateSettingsLastWriter | tools/utils/common.py:84-123 | each setting ends as the overrides' last value, else the defaults' last value, else what it held before |
| Settings.OverridesWin | tools/utils/common.py:84-87 | a setting assigned in `settings/` takes that directory's last value, whatever the defaults said |
| Settings.DefaultsSurvive | tools/utils/common.py:84-96 | a setting no override assigns keeps what the defaults gave it |
| Settings.PopulateSettingsIdempotent | tools/utils/common.py:83-123 | loading the same files twice gives every setting the same value as loading them once |
| Paths.JoinPath | tools/utils/common.py:89 | `os.path.join`: an absolute second part replaces the first; a relative part goes after one `/` when the first part is non-empty and does not end in `/`, and is appended directly when the first part is empty or already ends in `/` |
| Paths.LastComponentOfJoin | tools/utils/common.py:93 | the last `/` component of a joined path is the joined name when it has no separator |
| Database.FetchErrorsMembers | tools/utils/database.py:499-508 | a stderr line is reported exactly when it does not contain the password warning |
| Database.FetchErrorsAppend | tools/utils/database.py:501-507 | the filter keeps line order |
| Database.BackupSuffix | tools/utils/database.py:189 | `lite` for a table list, else the recorded `db_ver` when set, else `full` |
| Database.BackupFileNameSuffix | tools/utils/database.py:186-191 | the backup file name ends in `-<suffix>.sql` |
| Database.FixtureImported | tools/utils/database.py:422-425 | a table's `<table>.sql` passes the listing filter exactly when the table is not protected |
| Database.ListedNamesExactly | tools/utils/database.py:420-429 | the listing keeps exactly the `.sql` names whose stem is not a protected table |
| Database.ImportedNamesMembers | tools/utils/database.py:421-428 | a name is kept exactly when it is listed and passes the filter |
| Database.RemoveFirst | tools/utils/database.py:433-434 | `pop(index(x))` removes one occurrence of `x`, and changes nothing when `x` is absent |
| Database.RemoveFirstAt | tools/utils/database.py:433-434 | `pop(index(x))` removes the first occurrence of `x` and keeps the other elements in their order: with `x` first at index `i`, the result is `s[..i] + s[i+1..]` |
| Database.MoveToEndSorted | tools/utils/database.py:431-438 | moving an entry of a sorted list to its end keeps its elements, puts it last and keeps the rest sorted |
| Database.SqlFilesOrder | tools/utils/database.py:430-440 | the `sql/` part holds exactly the chosen files, sorted, with `triggers.sql` last when present |
| Database.ModuleLineIsNonBlank | tools/utils/database.py:443-447 | an `init.txt` line counts exactly when it is not a `#` comment and not blank |
| Database.ModuleFilesAppend | tools/utils/database.py:441-454 | module files follow `init.txt` order block by block |
| Database.ModuleFilesFrom | tools/utils/database.py:441-454 | a file is a module file exactly when some `init.txt` line names a module and the file is listed by the glob under that line's directory, or is that line's path when it is a `.sql` file and not a directory |
| Database.FetchFilesOrder | tools/utils/database.py:401-455 | the import list is the chosen `sql/` files, sorted, with `triggers.sql` moved last, followed by the module files |
| Sorting.Sort | tools/utils/database.py:430 | sorting permutes the list |
| Sorting.SortSorted | tools/utils/database.py:430 | the result is in Python's string order |
| Sorting.SortedUnique | tools/utils/database.py:430 | two sorted permutations of the same list are equal, so the model's sort agrees with Python's |

## Left out

- Reading rows from the database, reading and writing files, `os.walk`, `os.listdir`, git, and `subprocess`. They happen outside the model: rows, lines, listings, diff paths, the glob result and file existence are parameters.
- ValueCodec.EncodeValue: floating values (`database.py:354-361`) and other non-integer numbers written by `str(value)` (`Decimal`, `DOUBLE`, date and time types at `database.py:363`) are not modelled. Only integers are.
- ValueCodec.BytesLiteralRoundTrip: the readers are the model's own, not MySQL's. MySQL reads backslash escapes, which `value.replace("'", "\\'")` (`database.py:334`) leaves alone. The printable `npc_list` name (`database.py:320-323`) is not escaped at all. So none of the round-trip lemmas is a re-import guarantee.
- Text.Lower: `str.lower()` (`database.py:297`) is modelled on ASCII letters only. Python also folds non-ASCII letters: U+212A KELVIN SIGN becomes `k`, and `İ` grows into two characters.
- Export.IsInsertLine: the table name is put into a regular expression unescaped (`database.py:298-299`). The model matches it literally, so a name with regex metacharacters such as `.` would match differently.
- Paths.JoinPath: `/` is taken as `os.sep` (`common.py:89,93`, and every `os.path.join` in `fetch_files`). This is the POSIX behaviour only.
- Database.BackupFileName: `os.path.normpath` and `.replace("\\", "/")` (`database.py:186-191`) are not applied. The clock is a `timestamp` parameter.
- Numbers.ParseInt: `int()` also accepts non-ASCII decimal digits, and it rejects texts over 4300 digits (`database.py:348`). Neither is modelled.
- Database.ChangedFiles: the diff step (`database.py:403-418`) is all-or-nothing: either every changed path or none. In Python, an exception in the middle of the loop (say a deleted file whose `b_path` is `None`) keeps the paths appended before it.
- Database.ModuleEntry: the sorted result of `pathlib.Path(...).glob("**/*.sql")` and the `is_dir` test (`database.py:449-451`) are a map parameter. `pathlib` sorts paths part by part, which is not always plain string order.
- The messages printed by the exception handlers (`database.py:389`, `database.py:415-418`, `common.py:125`) are dropped.
- Settings: a settings file that cannot be opened or decoded raises inside `readlines()` (`common.py:97`), before the line loop, and is skipped whole, leaving its group untouched (`common.py:124-125`). The model has no such entry: every entry's lines are given.
- Settings.PopulateSettingsIdempotent: states idempotence setting by setting, through `FindIn`. It says nothing about the set of group names.
- The rest of the tool is outside this model: the connection and queries (`check_missing`, `check_mysql_bin`), migrations (`populate_migrations`), setup/import/backup command lines, the `xitool` command line, and Common's YAML config, git and print helpers.

=== FILE: codec.dfy ===
/** How the export writes one database value as SQL literal text
    (tools/utils/database.py, the body of the per-value loop in
    `export_table`). Values come from the database driver as `None`,
    `bytes`, `str` or a number; only integer numbers are modelled. */
module ValueCodec {
  import opened Results
  import opened Text
  import opened Numbers
  import opened Symbols

  type Byte = x: int | 0 <= x < 256

  datatype Value = Null | Bytes(bytes: seq<Byte>) | Str(text: string) | Int(n: int)

  /** `int(key)` raised while expanding a bitmask. */
  datatype EncodeError = UnparsableMaskKey(key: string)

  const HexDigits: string := "0123456789ABCDEF"

  /** `bytes.hex().upper()`: two upper-case hex digits per byte. */
  function Hex(b: seq<Byte>): (r: string)
    ensures |r| == 2 * |b|
    decreases |b|
  {
    if b == [] then "" else [HexDigits[b[0] / 16], HexDigits[b[0] % 16]] + Hex(b[1..])
  }

  /** Value of one upper-case hex digit, if it is one. */
  function HexValue(c: char): (r: Option<nat>)
    ensures r.Some? ==> r.value < 16 && HexDigits[r.value] == c
  {
    if '0' <= c <= '9' then Some(c as int - '0' as int)
    else if 'A' <= c <= 'F' then Some(c as int - 'A' as int + 10)
    else None
  }

  /** Reads upper-case hex text back into bytes. */
  function UnHex(s: string): Option<seq<Byte>>
    decreases |s|
  {
    if s == [] then Some([])
    else if |s| == 1 then None
    else
      match (HexValue(s[0]), HexValue(s[1]), UnHex(s[2..]))
      case (Some(hi), Some(lo), Some(rest)) => Some([hi * 16 + lo] + rest)
      case _ => None
  }

  lemma ByteSplit(x: Byte)
    ensures x / 16 < 16 && x % 16 < 16 && x / 16 * 16 + x % 16 == x
  {
  }

  lemma HexDigitValue(d: nat)
    requires d < 16
    ensures HexValue(HexDigits[d]) == Some(d)
  {
  }

  lemma {:induction false} HexRoundTrip(b: seq<Byte>)
    ensures UnHex(Hex(b)) == Some(b)
    decreases |b|
  {
    if b != [] {
      var hi, lo := b[0] / 16, b[0] % 16;
      ByteSplit(b[0]);
      HexCons(b);
      HexDigitValue(hi);
      HexDigitValue(lo);
      HexRoundTrip(b[1..]);
      UnHexStep(Hex(b), hi, lo, b[1..]);
      assert [hi * 16 + lo] + b[1..] == b;
    }
  }

  lemma HexCons(b: seq<Byte>)
    requires b != []
    ensures Hex(b)[0] == HexDigits[b[0] / 16] && Hex(b)[1] == HexDigits[b[0] % 16]
    ensures Hex(b)[2..] == Hex(b[1..])
  {
  }

  lemma UnHexStep(s: string, hi: nat, lo: nat, rest: seq<Byte>)
    requires |s| >= 2 && HexValue(s[0]) == Some(hi) && HexValue(s[1]) == Some(lo)
    requires UnHex(s[2..]) == Some(rest)
    ensures hi * 16 + lo < 256 && UnHex(s) == Some([hi * 16 + lo] + rest)
  {
  }

  /** The printable-ASCII test on a name field: every byte in 32..126. */
  function IsPrintableText(b: seq<Byte>): (r: bool)
    ensures r <==> forall i :: 0 <= i < |b| ==> 32 <= b[i] <= 126
    decreases |b|
  {
    if b == [] then true
    else if b[0] < 32 || b[0] > 126 then false
    else
      var r := IsPrintableText(b[1..]);
      assert forall i :: 1 <= i < |b| ==> b[i] == b[1..][i - 1];
      r
  }

  /** `bytes.decode("latin_1")`: each byte becomes the character with that code. */
  function Latin1(b: seq<Byte>): (r: string)
    ensures |r| == |b|
    ensures forall i :: 0 <= i < |b| ==> r[i] as int == b[i]
  {
    seq(|b|, i requires 0 <= i < |b| => b[i] as char)
  }

  /** The binary branch: empty bytes, the `npc_list` name column decoded as
      text when printable, and `0x` hex otherwise. */
  function EncodeBytes(table: string, column: nat, b: seq<Byte>): (r: string)
    ensures StartsWith(r, "0x") <==> |b| > 0 && !(table == "npc_list" && column == 1 && IsPrintableText(b))
    ensures !StartsWith(r, "0x") ==> |r| >= 2 && r[0] == '\'' && r[|r| - 1] == '\''
  {
    var r :=
      if |b| == 0 then "''"
      else if table == "npc_list" && column == 1 && IsPrintableText(b) then "'" + Latin1(b) + "'"
      else "0x" + Hex(b);
    assert r[0] == '0' <==> StartsWith(r, "0x");
    r
  }

  /** Reads text back as the bytes of its character codes, if all are below 256. */
  function CharCodes(s: string): Option<seq<Byte>>
    decreases |s|
  {
    if s == [] then Some([])
    else if s[0] as int >= 256 then None
    else
      var rest :- CharCodes(s[1..]);
      Some([s[0] as int as Byte] + rest)
  }

  lemma {:induction false} CharCodesOfLatin1(b: seq<Byte>)
    ensures CharCodes(Latin1(b)) == Some(b)
    decreases |b|
  {
    if b != [] {
      var l := Latin1(b);
      assert l[1..] == Latin1(b[1..]);
      CharCodesOfLatin1(b[1..]);
      assert l[0] as int == b[0] && l[0] as int < 256;
      assert [l[0] as int as Byte] + b[1..] == b;
    }
  }

  /** Reads a literal written by `EncodeBytes` back into bytes. */
  function DecodeBytesLiteral(s: string): Option<seq<Byte>> {
    if StartsWith(s, "0x") then UnHex(s[2..])
    else if |s| >= 2 && s[0] == '\'' && s[|s| - 1] == '\'' then CharCodes(s[1..|s| - 1])
    else None
  }

  /** The literal determines the binary value: read back by
      `DecodeBytesLiteral` (hex digits after `0x`, character codes between
      quotes, no escapes) it gives the original bytes. This is the
      model's own reader, not MySQL's: the quoted `npc_list` form leaves a
      quote inside the name unescaped (`NpcNameQuoteUnescaped`). */
  lemma BytesLiteralRoundTrip(table: string, column: nat, b: seq<Byte>)
    ensures DecodeBytesLiteral(EncodeBytes(table, column, b)) == Some(b)
  {
    var r := EncodeBytes(table, column, b);
    if StartsWith(r, "0x") {
      assert r[2..] == Hex(b);
      HexRoundTrip(b);
    } else if |b| == 0 {
      assert r == "''";
      assert |r| == 2 && r[0] == '\'' && r[1] == '\'';
      assert r[1..|r| - 1] == [];
    } else {
      assert r[1..|r| - 1] == Latin1(b);
      CharCodesOfLatin1(b);
    }
  }

  /** A printable `npc_list` name is put between quotes as it is, so a
      name holding a quote gives a literal whose inner quote ends it early:
      `O'N` is written `'O'N'`, which no quoted-literal reader accepts. */
  lemma NpcNameQuoteUnescaped()
    ensures EncodeBytes("npc_list", 1, [79, 39, 78]) == "'O'N'"
    ensures UnquoteText("'O'N'") == None
  {
    assert IsPrintableText([79, 39, 78]);
    assert Latin1([79, 39, 78]) == "O'N";
    assert "'O'N'"[1..4] == "O'N";
    assert UnescapeQuotes("'N") == None;
    assert UnescapeQuotes("O'N") == None;
  }

  /** `s.replace("'", "\\'")`: each quote gets a backslash; nothing else is escaped. */
  function EscapeQuotes(s: string): (r: string)
    ensures r == [] || r[0] != '\''
    decreases |s|
  {
    if s == [] then ""
    else if s[0] == '\'' then "\\'" + EscapeQuotes(s[1..])
    else [s[0]] + EscapeQuotes(s[1..])
  }

  /** The text branch: the escaped string between single quotes. */
  function QuoteText(s: string): (r: string)
    ensures |r| >= 2 && r[0] == '\'' && r[|r| - 1] == '\''
  {
    "'" + EscapeQuotes(s) + "'"
  }

  /** Reads the inside of a quoted literal where `\'` is the only escape;
      a bare quote would end the literal early. */
  function UnescapeQuotes(s: string): Option<string>
    decreases |s|
  {
    if s == [] then Some([])
    else if s[0] == '\\' && |s| >= 2 && s[1] == '\'' then
      var rest :- UnescapeQuotes(s[2..]);
      Some("'" + rest)
    else if s[0] == '\'' then None
    else
      var rest :- UnescapeQuotes(s[1..]);
      Some([s[0]] + rest)
  }

  function UnquoteText(s: string): Option<string> {
    if |s| >= 2 && s[0] == '\'' && s[|s| - 1] == '\'' then UnescapeQuotes(s[1..|s| - 1]) else None
  }

  lemma {:induction false} EscapeQuotesRoundTrip(s: string)
    ensures UnescapeQuotes(EscapeQuotes(s)) == Some(s)
    decreases |s|
  {
    if s != [] {
      var e := EscapeQuotes(s);
      EscapeQuotesRoundTrip(s[1..]);
      if s[0] == '\'' {
        assert e[2..] == EscapeQuotes(s[1..]);
        assert e[0] == '\\' && e[1] == '\'';
        assert "'" + s[1..] == s;
      } else {
        assert e[1..] == EscapeQuotes(s[1..]);
        assert |e| >= 2 ==> e[1] != '\'';
        assert e[0] == s[0];
        assert [s[0]] + s[1..] == s;
      }
    }
  }

  /** The quoted literal determines the string when `\'` is read as the
      one escape. MySQL also reads a backslash as an escape, which
      `EscapeQuotes` leaves alone, so this is injectivity for the model's
      reader and not a re-import guarantee. */
  lemma QuoteTextRoundTrip(s: string)
    ensures UnquoteText(QuoteText(s)) == Some(s)
  {
    var q := QuoteText(s);
    assert q[1..|q| - 1] == EscapeQuotes(s);
    EscapeQuotesRoundTrip(s);
  }

  /** The names of the declared values whose integer shares a bit with
      `v`, walking the declarations in order; `int(key)` raises on the
      first declared value that is not an integer. */
  function MaskNames(t: SymbolTable, v: int): (r: Result<seq<string>, EncodeError>)
    ensures r.Ok? <==> forall j :: 0 <= j < |t| ==> ParseInt(t[j].0).Some?
    ensures r.Err? ==> r.error.UnparsableMaskKey? && ParseInt(r.error.key).None?
    decreases |t|
  {
    if t == [] then Ok([])
    else
      var rest := MaskNames(t[1..], v);
      assert forall j :: 1 <= j < |t| ==> t[j] == t[1..][j - 1];
      match ParseInt(t[0].0)
      case None => Err(UnparsableMaskKey(t[0].0))
      case Some(m) =>
        var names :- rest;
        Ok((if BitAnd(v, m) != 0 then [t[0].1] else []) + names)
  }

  /** The `pet_skills` bitmask: the matching names joined by `" | "`. */
  function ExpandMask(t: SymbolTable, v: int): Result<string, EncodeError> {
    var names :- MaskNames(t, v);
    Ok(Join(" | ", names))
  }

  /** A declared name is listed exactly when its value shares a bit with
      `v`: every such name appears, and every listed name is one. */
  lemma {:induction false} MaskNamesMembers(t: SymbolTable, v: int)
    requires MaskNames(t, v).Ok?
    ensures forall j :: 0 <= j < |t| && BitAnd(v, ParseInt(t[j].0).value) != 0 ==> t[j].1 in MaskNames(t, v).value
    ensures forall n :: n in MaskNames(t, v).value ==>
      exists j :: 0 <= j < |t| && t[j].1 == n && BitAnd(v, ParseInt(t[j].0).value) != 0
    decreases |t|
  {
    if t != [] {
      MaskNamesMembers(t[1..], v);
      assert forall j :: 1 <= j < |t| ==> t[j] == t[1..][j - 1];
      var names := MaskNames(t, v).value;
      var rest := MaskNames(t[1..], v).value;
      var m := ParseInt(t[0].0).value;
      assert names == (if BitAnd(v, m) != 0 then [t[0].1] else []) + rest;
      forall n | n in names
        ensures exists j :: 0 <= j < |t| && t[j].1 == n && BitAnd(v, ParseInt(t[j].0).value) != 0
      {
        if n !in rest {
          assert t[0].1 == n && BitAnd(v, m) != 0;
        } else {
          var j :| 0 <= j < |t[1..]| && t[1..][j].1 == n && BitAnd(v, ParseInt(t[1..][j].0).value) != 0;
          assert t[j + 1] == t[1..][j];
        }
      }
    }
  }

  /** The names come out in declaration order: the names for two runs of
      declarations are the first run's names followed by the second's. */
  lemma {:induction false} MaskNamesInOrder(t: SymbolTable, u: SymbolTable, v: int)
    requires MaskNames(t + u, v).Ok?
    ensures MaskNames(t, v).Ok? && MaskNames(u, v).Ok?
    ensures MaskNames(t + u, v).value == MaskNames(t, v).value + MaskNames(u, v).value
    decreases |t|
  {
    if t != [] {
      assert (t + u)[0] == t[0];
      assert (t + u)[1..] == t[1..] + u;
      MaskNamesInOrder(t[1..], u, v);
      var head: seq<string> := if BitAnd(v, ParseInt(t[0].0).value) != 0 then [t[0].1] else [];
      var a, b := MaskNames(t[1..], v).value, MaskNames(u, v).value;
      ConcatAssoc(head, a, b);
    } else {
      assert t + u == u;
    }
  }

  /** With no bit set nothing is listed. */
  lemma {:induction false} ZeroMaskListsNothing(t: SymbolTable)
    requires MaskNames(t, 0).Ok?
    ensures MaskNames(t, 0).value == []
    decreases |t|
  {
    if t != [] {
      ZeroMaskListsNothing(t[1..]);
    }
  }

  /** The numeric branch for an integer: a declared name for
      `mob_droplist` column 5, a bitmask for `pet_skills` column 9, and
      `str(n)` otherwise. */
  function EncodeInt(table: string, column: nat, n: int, t: SymbolTable): Result<string, EncodeError> {
    if table == "mob_droplist" && column == 5 && Lookup(t, Decimal(n)).Some? then Ok(Lookup(t, Decimal(n)).value)
    else if table == "pet_skills" && column == 9 then ExpandMask(t, n)
    else Ok(Decimal(n))
  }

  /** Only the bitmask column can fail; a `mob_droplist` drop rate is the
      name declared for its decimal text if there is one and reads back as
      the number otherwise; every other column reads back as the number. */
  lemma EncodeIntMeaning(table: string, column: nat, n: int, t: SymbolTable)
    ensures EncodeInt(table, column, n, t).Err? ==> table == "pet_skills" && column == 9
    ensures table == "mob_droplist" && column == 5 ==>
      var r := EncodeInt(table, column, n, t);
      r.Ok? && (Lookup(t, Decimal(n)) == Some(r.value) || (Lookup(t, Decimal(n)).None? && ParseInt(r.value) == Some(n)))
    ensures !(table == "mob_droplist" && column == 5) && !(table == "pet_skills" && column == 9) ==>
      var r := EncodeInt(table, column, n, t);
      r.Ok? && ParseInt(r.value) == Some(n)
  {
    DecimalRoundTrip(n);
  }

  /** One value of a row as SQL literal text. */
  function EncodeValue(table: string, column: nat, v: Value, t: SymbolTable): Result<string, EncodeError> {
    match v
    case Null => Ok("NULL")
    case Bytes(b) => Ok(EncodeBytes(table, column, b))
    case Str(s) => Ok(QuoteText(s))
    case Int(n) => EncodeInt(table, column, n, t)
  }

  /** Only an integer in the bitmask column can fail; `None` is `NULL`;
      binary values, strings and ordinary integers are recovered from their
      literal by the readers above (`DecodeBytesLiteral`, `UnquoteText`,
      `ParseInt`). */
  lemma EncodeValueMeaning(table: string, column: nat, v: Value, t: SymbolTable)
    ensures EncodeValue(table, column, v, t).Err? ==> v.Int? && table == "pet_skills" && column == 9
    ensures v.Null? ==> EncodeValue(table, column, v, t) == Ok("NULL")
    ensures v.Bytes? ==>
      EncodeValue(table, column, v, t).Ok? && DecodeBytesLiteral(EncodeValue(table, column, v, t).value) == Some(v.bytes)
    ensures v.Str? ==>
      EncodeValue(table, column, v, t).Ok? && UnquoteText(EncodeValue(table, column, v, t).value) == Some(v.text)
    ensures v.Int? && !(table == "mob_droplist" && column == 5) && !(table == "pet_skills" && column == 9) ==>
      EncodeValue(table, column, v, t).Ok? && ParseInt(EncodeValue(table, column, v, t).value) == Some(v.n)
  {
    match v
    case Null =>
    case Bytes(b) => BytesLiteralRoundTrip(table, column, b);
    case Str(s) => QuoteTextRoundTrip(s);
    case Int(n) => EncodeIntMeaning(table, column, n, t);
  }
}

=== FILE: database.dfy ===
/** The pure parts of the database tool besides the fixture rewriter: the
    list of protected tables, the filter that hides the password warning in
    `mysql` stderr, the backup file name, and the order in which `.sql`
    files are imported. */
module Database {
  import opened Results
  import opened Text
  import opened Paths
  import opened Sorting

  /** The tables holding player and server state, imported only on a fresh
      setup and never overwritten by the fixture import. */
  const ProtectedTables: seq<string> := [
    "accounts", "accounts_banned", "auction_house_items", "auction_house",
    "char_blacklist", "char_chocobos", "char_effects", "char_equip",
    "char_equip_saved", "char_exp", "char_history", "char_inventory",
    "char_jobs", "char_job_points", "char_look", "char_merit", "char_pet",
    "char_points", "char_profile", "char_skills", "char_spells", "char_stats",
    "char_storage", "char_style", "char_unlocks", "char_vars", "chars",
    "conquest_system", "delivery_box", "ip_exceptions", "linkshells",
    "server_variables", "unity_system"
  ]

  /** The warning every client binary prints when given `-p<password>`. */
  const PasswordWarning: string := "Using a password on the command line interface can be insecure"

  // ---------------------------------------------------------------------
  // stderr filter

  /** The stderr lines of a client call that are real errors. */
  function FetchErrors(lines: seq<string>): (r: seq<string>)
    ensures |r| <= |lines|
    decreases |lines|
  {
    if lines == [] then []
    else (if Contains(lines[0], PasswordWarning) then [] else [lines[0]]) + FetchErrors(lines[1..])
  }

  /** A line is reported exactly when it is not the password warning. */
  lemma {:induction false} FetchErrorsMembers(lines: seq<string>, x: string)
    ensures x in FetchErrors(lines) <==> x in lines && !Contains(x, PasswordWarning)
    decreases |lines|
  {
    if lines != [] {
      FetchErrorsMembers(lines[1..], x);
      assert lines == [lines[0]] + lines[1..];
    }
  }

  /** Filtering keeps the order of the lines: the errors of two runs are the
      errors of the first followed by those of the second. */
  lemma {:induction false} FetchErrorsAppend(a: seq<string>, b: seq<string>)
    ensures FetchErrors(a + b) == FetchErrors(a) + FetchErrors(b)
    decreases |a|
  {
    if a == [] {
      assert a + b == b;
    } else {
      assert (a + b)[1..] == a[1..] + b;
      FetchErrorsAppend(a[1..], b);
      ConcatAssoc(if Contains(a[0], PasswordWarning) then [] else [a[0]], FetchErrors(a[1..]), FetchErrors(b));
    }
  }

  // ---------------------------------------------------------------------
  // backup file name

  /** Python truthiness of the optional `db_ver` setting. */
  predicate IsSet(v: Option<string>) {
    v.Some? && v.value != []
  }

  /** The last part of a backup's name: `lite` for a dump of chosen tables,
      else the recorded database version, else `full`. */
  function BackupSuffix(tables: seq<string>, dbVer: Option<string>): (r: string)
    ensures r != []
    ensures tables != [] ==> r == "lite"
    ensures tables == [] && IsSet(dbVer) ==> r == dbVer.value
    ensures tables == [] && !IsSet(dbVer) ==> r == "full"
  {
    if tables != [] then "lite"
    else if IsSet(dbVer) then dbVer.value
    else "full"
  }

  /** The backup file: `<database>-<timestamp>-<suffix>.sql` in `outDir`;
      the timestamp is given, not read from a clock. */
  function BackupFileName(outDir: string, database: string, timestamp: string,
                          tables: seq<string>, dbVer: Option<string>): (r: string)
  {
    JoinPath(outDir, database + "-" + timestamp + "-" + BackupSuffix(tables, dbVer) + ".sql")
  }

  /** A table list always yields a `lite` backup; a full dump is labelled
      with the database version when one is recorded, and `full` when not. */
  lemma {:induction false} BackupFileNameSuffix(outDir: string, database: string, timestamp: string,
                             tables: seq<string>, dbVer: Option<string>)
    ensures EndsWith(BackupFileName(outDir, database, timestamp, tables, dbVer), "-" + BackupSuffix(tables, dbVer) + ".sql")
  {
    var suffix := BackupSuffix(tables, dbVer);
    var name := database + "-" + timestamp + "-" + suffix + ".sql";
    assert name == (database + "-" + timestamp) + ("-" + suffix + ".sql");
    EndsWithAppend(database + "-" + timestamp, "-" + suffix + ".sql");
    EndsWithTrans(BackupFileName(outDir, database, timestamp, tables, dbVer), name, "-" + suffix + ".sql");
  }

  lemma {:induction false} EndsWithAppend(a: string, b: string)
    ensures EndsWith(a + b, b)
  {
    assert (a + b)[|a + b| - |b|..] == b;
  }

  lemma {:induction false} EndsWithTrans(a: string, b: string, c: string)
    requires EndsWith(a, b) && EndsWith(b, c)
    ensures EndsWith(a, c)
  {
    assert a[|a| - |c|..] == a[|a| - |b|..][|b| - |c|..];
  }

  // ---------------------------------------------------------------------
  // import order

  /** A top-level file of `sql/` is imported when it is a `.sql` file that
      is not the fixture of a protected table. */
  predicate Imported(name: string) {
    EndsWith(name, ".sql") && DropLast(name, 4) !in ProtectedTables
  }

  /** A table's fixture `<table>.sql` is imported from the listing exactly
      when the table is not protected. */
  lemma {:induction false} FixtureImported(table: string)
    ensures Imported(table + ".sql") <==> table !in ProtectedTables
  {
    var n := table + ".sql";
    assert n[|n| - 4..] == ".sql";
    assert n[..|n| - 4] == table;
  }

  /** The names among `names` that are imported, in order. */
  function ImportedNames(names: seq<string>): (r: seq<string>)
    ensures |r| <= |names|
    decreases |names|
  {
    if names == [] then []
    else (if Imported(names[0]) then [names[0]] else []) + ImportedNames(names[1..])
  }

  lemma {:induction false} ImportedNamesMembers(names: seq<string>, n: string)
    ensures n in ImportedNames(names) <==> n in names && Imported(n)
    decreases |names|
  {
    if names != [] {
      ImportedNamesMembers(names[1..], n);
      assert names == [names[0]] + names[1..];
    }
  }

  /** Every name joined onto one directory. */
  function JoinAll(dir: string, names: seq<string>): (r: seq<string>)
    ensures |r| == |names|
    ensures forall i :: 0 <= i < |names| ==> r[i] == JoinPath(dir, names[i])
    decreases |names|
  {
    if names == [] then [] else [JoinPath(dir, names[0])] + JoinAll(dir, names[1..])
  }

  /** The `sql/` files of a full import: the directory's own files (no
      subdirectories), in sorted name order, imported ones only. */
  function ListedFiles(root: string, names: seq<string>): (r: seq<string>)
  {
    JoinAll(JoinPath(root, "sql"), ImportedNames(Sort(names)))
  }

  /** The `sql/` files of an express import: each path git reports as
      changed that still exists, in git's order; nothing when the diff
      could not be computed. */
  function ChangedFiles(root: string, diff: Option<seq<string>>, present: set<string>): (r: seq<string>)
  {
    match diff
    case None => []
    case Some(paths) => ExistingPaths(root, paths, present)
  }

  function ExistingPaths(root: string, paths: seq<string>, present: set<string>): (r: seq<string>)
    ensures forall i :: 0 <= i < |r| ==> r[i] in present
    decreases |paths|
  {
    if paths == [] then []
    else
      var p := JoinPath(root, paths[0]);
      (if p in present then [p] else []) + ExistingPaths(root, paths[1..], present)
  }

  /** `s` with its first `x` taken out. */
  function RemoveFirst(s: seq<string>, x: string): (r: seq<string>)
    ensures x in s ==> multiset(r) == multiset(s) - multiset{x}
    ensures x !in s ==> r == s
    decreases |s|
  {
    if s == [] then []
    else if s[0] == x then
      assert s == [s[0]] + s[1..];
      s[1..]
    else
      assert s == [s[0]] + s[1..];
      [s[0]] + RemoveFirst(s[1..], x)
  }

  /** `pop(index(x))` takes out the first occurrence of `x` and keeps
      everything else in order. */
  lemma {:induction false} RemoveFirstAt(s: seq<string>, x: string, i: int)
    requires 0 <= i < |s| && s[i] == x && x !in s[..i]
    ensures RemoveFirst(s, x) == s[..i] + s[i + 1..]
    decreases |s|
  {
    if i > 0 {
      var t := s[1..];
      var p := s[..i];
      assert p[0] == s[0] && p[1..] == t[..i - 1];
      RemoveFirstCons(s, x);
      RemoveFirstAt(t, x, i - 1);
      DropAtTail(s, i);
    }
  }

  /** Dropping index `i > 0` is keeping the head and dropping `i - 1` from
      the tail. */
  lemma DropAtTail(s: seq<string>, i: int)
    requires 0 < i < |s|
    ensures s[..i] + s[i + 1..] == [s[0]] + (s[1..][..i - 1] + s[1..][i..])
  {
    assert s[..i] == [s[0]] + s[1..][..i - 1];
    assert s[i + 1..] == s[1..][i..];
  }

  /** One step of `RemoveFirst` past an element that is not `x`. */
  lemma RemoveFirstCons(s: seq<string>, x: string)
    requires s != [] && s[0] != x
    ensures RemoveFirst(s, x) == [s[0]] + RemoveFirst(s[1..], x)
  {
  }

  /** The first `x` moved to the end, as `append(pop(index(x)))` does; a
      list without `x` is left alone. */
  function MoveToEnd(s: seq<string>, x: string): (r: seq<string>)
  {
    if x in s then RemoveFirst(s, x) + [x] else s
  }

  /** Taking an element out of a sorted list leaves it sorted. */
  lemma {:induction false} RemoveFirstSorted(s: seq<string>, x: string)
    requires Sorted(s)
    ensures Sorted(RemoveFirst(s, x))
    decreases |s|
  {
    if s != [] && s[0] != x {
      var tail := s[1..];
      SortedTail(s);
      RemoveFirstSorted(tail, x);
      var rest := RemoveFirst(tail, x);
      assert AllAbove(s[0], rest) by {
        forall i | 0 <= i < |rest| ensures Below(s[0], rest[i]) {
          RemoveFirstFrom(tail, x, i);
          var j :| 0 <= j < |tail| && tail[j] == rest[i];
          assert tail[j] == s[j + 1];
        }
      }
      SortedCons(s[0], rest);
    } else if s != [] {
      SortedTail(s);
    }
  }

  lemma {:induction false} RemoveFirstFrom(s: seq<string>, x: string, i: int)
    requires 0 <= i < |RemoveFirst(s, x)|
    ensures RemoveFirst(s, x)[i] in s
  {
    var r := RemoveFirst(s, x);
    assert r[i] in multiset(r);
    if x in s {
      assert r[i] in multiset(s);
    }
  }

  /** The path `fetch_files` moves last. */
  function TriggersPath(root: string): string {
    JoinPath(JoinPath(root, "sql"), "triggers.sql")
  }

  /** The `sql/` part of the import list: the chosen files sorted, with
      `triggers.sql` (when present) moved to the end. */
  function SqlFiles(base: seq<string>, root: string): (r: seq<string>)
  {
    MoveToEnd(Sort(base), TriggersPath(root))
  }

  /** The `sql/` part holds exactly the chosen files; without
      `triggers.sql` it is in sorted order, and with it, `triggers.sql` is
      last and everything before it is in sorted order. */
  lemma {:induction false} SqlFilesOrder(base: seq<string>, root: string)
    ensures multiset(SqlFiles(base, root)) == multiset(base)
    ensures TriggersPath(root) !in base ==> Sorted(SqlFiles(base, root))
    ensures TriggersPath(root) in base ==>
      var r := SqlFiles(base, root);
      r != [] && r[|r| - 1] == TriggersPath(root) && Sorted(r[..|r| - 1])
  {
    var t := TriggersPath(root);
    SortSorted(base);
    MoveToEndSorted(Sort(base), t);
    SameMembers(Sort(base), base, t);
  }

  lemma {:induction false} SameMembers(a: seq<string>, b: seq<string>, x: string)
    requires multiset(a) == multiset(b)
    ensures x in a <==> x in b
  {
    assert x in a <==> x in multiset(a);
    assert x in b <==> x in multiset(b);
  }

  /** Moving an element of a sorted list to its end: the rest stays
      sorted. */
  lemma {:induction false} MoveToEndSorted(s: seq<string>, x: string)
    requires Sorted(s)
    ensures multiset(MoveToEnd(s, x)) == multiset(s)
    ensures x !in s ==> Sorted(MoveToEnd(s, x))
    ensures x in s ==> var r := MoveToEnd(s, x);
      r != [] && r[|r| - 1] == x && Sorted(r[..|r| - 1])
  {
    if x in s {
      var front := RemoveFirst(s, x);
      RemoveFirstSorted(s, x);
      var r := front + [x];
      assert r[..|r| - 1] == front;
      assert multiset(r) == multiset(front) + multiset{x};
    }
  }

  /** An `init.txt` line names a module unless it is a comment or blank. */
  predicate ModuleLine(line: string) {
    !StartsWith(line, "#") && Strip(line) != [] && line != "\n" && line != "\r\n"
  }

  /** The explicit `"\n"` and `"\r\n"` exclusions add nothing to the blank
      test: both strip to nothing. */
  lemma {:induction false} ModuleLineIsNonBlank(line: string)
    ensures ModuleLine(line) <==> !StartsWith(line, "#") && Strip(line) != []
  {
    if line == "\n" {
      StripPadded("\n", [], []);
      assert "\n" + [] + [] == "\n";
    } else if line == "\r\n" {
      StripPadded("\r\n", [], []);
      assert "\r\n" + [] + [] == "\r\n";
    }
  }

  /** What one `init.txt` line adds: all `.sql` files under a directory
      entry (as the sorted glob lists them, given in `dirs`), or the entry
      itself when it is a `.sql` file. */
  function ModuleEntry(root: string, line: string, dirs: map<string, seq<string>>): (r: seq<string>)
  {
    if !ModuleLine(line) then []
    else
      var p := JoinPath(JoinPath(root, "modules"), Strip(line));
      if p in dirs then dirs[p]
      else if EndsWith(p, ".sql") then [p]
      else []
  }

  /** The module files, in `init.txt` order. */
  function ModuleFiles(root: string, lines: seq<string>, dirs: map<string, seq<string>>): (r: seq<string>)
    decreases |lines|
  {
    if lines == [] then []
    else ModuleEntry(root, lines[0], dirs) + ModuleFiles(root, lines[1..], dirs)
  }

  /** Module files keep `init.txt` order: the files of two blocks of lines
      are those of the first block followed by those of the second. */
  lemma {:induction false} ModuleFilesAppend(root: string, a: seq<string>, b: seq<string>, dirs: map<string, seq<string>>)
    ensures ModuleFiles(root, a + b, dirs) == ModuleFiles(root, a, dirs) + ModuleFiles(root, b, dirs)
    decreases |a|
  {
    if a == [] {
      assert a + b == b;
    } else {
      assert (a + b)[0] == a[0];
      assert (a + b)[1..] == a[1..] + b;
      ModuleFilesAppend(root, a[1..], b, dirs);
      var e := ModuleEntry(root, a[0], dirs);
      assert ModuleFiles(root, a + b, dirs) == e + ModuleFiles(root, a[1..] + b, dirs);
      ConcatAssoc(ModuleEntry(root, a[0], dirs), ModuleFiles(root, a[1..], dirs), ModuleFiles(root, b, dirs));
    }
  }

  /** `f` is contributed by the `init.txt` line `line`: the line names a
      module, and `f` is a file the glob lists under the named directory, or
      the named path itself when that is a `.sql` file and not a directory. */
  predicate FromLine(root: string, line: string, dirs: map<string, seq<string>>, f: string) {
    && ModuleLine(line)
    && var p := JoinPath(JoinPath(root, "modules"), Strip(line));
       (p in dirs && f in dirs[p]) || (p !in dirs && EndsWith(p, ".sql") && f == p)
  }

  /** A file is a module file exactly when some `init.txt` line contributes
      it. */
  lemma {:induction false} ModuleFilesFrom(root: string, lines: seq<string>, dirs: map<string, seq<string>>, f: string)
    ensures f in ModuleFiles(root, lines, dirs) <==>
      exists i :: 0 <= i < |lines| && FromLine(root, lines[i], dirs, f)
    decreases |lines|
  {
    if lines != [] {
      var e := ModuleEntry(root, lines[0], dirs);
      var rest := ModuleFiles(root, lines[1..], dirs);
      assert ModuleFiles(root, lines, dirs) == e + rest;
      ModuleEntryFrom(root, lines[0], dirs, f);
      ModuleFilesFrom(root, lines[1..], dirs, f);
      if f in rest {
        var i :| 0 <= i < |lines[1..]| && FromLine(root, lines[1..][i], dirs, f);
        assert lines[i + 1] == lines[1..][i];
      }
      if exists i :: 0 <= i < |lines| && FromLine(root, lines[i], dirs, f) {
        var i :| 0 <= i < |lines| && FromLine(root, lines[i], dirs, f);
        if i > 0 {
          assert lines[1..][i - 1] == lines[i];
        }
      }
    }
  }

  /** One line's entry holds exactly the files the line contributes. */
  lemma {:induction false} ModuleEntryFrom(root: string, line: string, dirs: map<string, seq<string>>, f: string)
    ensures f in ModuleEntry(root, line, dirs) <==> FromLine(root, line, dirs, f)
  {
  }

  /** `fetch_files`: the `sql/` files, chosen by git diff when both the
      recorded and the current version are known and by listing `sql/`
      otherwise, then the module files. */
  function FetchFiles(root: string, dbVer: Option<string>, version: string,
                      diff: Option<seq<string>>, present: set<string>, names: seq<string>,
                      initLines: seq<string>, dirs: map<string, seq<string>>): (r: seq<string>)
  {
    var base := if IsSet(dbVer) && version != [] then ChangedFiles(root, diff, present)
                else ListedFiles(root, names);
    SqlFiles(base, root) + ModuleFiles(root, initLines, dirs)
  }

  /** The import list is the sorted `sql/` files (with `triggers.sql` last)
      followed by the module files in `init.txt` order. */
  lemma {:induction false} FetchFilesOrder(root: string, dbVer: Option<string>, version: string,
                        diff: Option<seq<string>>, present: set<string>, names: seq<string>,
                        initLines: seq<string>, dirs: map<string, seq<string>>)
    ensures var base := if IsSet(dbVer) && version != [] then ChangedFiles(root, diff, present)
                        else ListedFiles(root, names);
      ImportOrder(FetchFiles(root, dbVer, version, diff, present, names, initLines, dirs),
                  base, TriggersPath(root), ModuleFiles(root, initLines, dirs))
  {
    var base := if IsSet(dbVer) && version != [] then ChangedFiles(root, diff, present)
                else ListedFiles(root, names);
    var modules := ModuleFiles(root, initLines, dirs);
    assert FetchFiles(root, dbVer, version, diff, present, names, initLines, dirs) == SqlFiles(base, root) + modules;
    SqlFilesThenModules(base, root, modules);
  }

  /** `r` is `base` in sorted order with `last` (when present) moved to the
      end, followed by `tail`. */
  predicate ImportOrder(r: seq<string>, base: seq<string>, last: string, tail: seq<string>) {
    && |base| <= |r|
    && multiset(r[..|base|]) == multiset(base)
    && (last !in base ==> Sorted(r[..|base|]))
    && (last in base ==> r[|base| - 1] == last && Sorted(r[..|base| - 1]))
    && r[|base|..] == tail
  }

  lemma {:induction false} SqlFilesThenModules(base: seq<string>, root: string, tail: seq<string>)
    ensures ImportOrder(SqlFiles(base, root) + tail, base, TriggersPath(root), tail)
  {
    SqlFilesOrder(base, root);
    OrderedThenTail(SqlFiles(base, root), base, TriggersPath(root), tail);
  }

  lemma {:induction false} OrderedThenTail(sql: seq<string>, base: seq<string>, last: string, tail: seq<string>)
    requires multiset(sql) == multiset(base)
    requires last !in base ==> Sorted(sql)
    requires last in base ==> sql != [] && sql[|sql| - 1] == last && Sorted(sql[..|sql| - 1])
    ensures ImportOrder(sql + tail, base, last, tail)
  {
    assert |sql| == |base| by {
      assert |multiset(sql)| == |sql| && |multiset(base)| == |base|;
    }
    var r := sql + tail;
    assert r[..|base|] == sql;
    assert r[|base|..] == tail;
    if last in base {
      assert r[..|base| - 1] == sql[..|sql| - 1];
    }
  }

  /** The fixture of a protected table is never picked up by the listing,
      while any other `.sql` file in `sql/` is. */
  lemma {:induction false} ListedNamesExactly(names: seq<string>, n: string)
    ensures n in ImportedNames(Sort(names)) <==> n in names && EndsWith(n, ".sql") && DropLast(n, 4) !in ProtectedTables
  {
    ImportedNamesMembers(Sort(names), n);
    assert n in Sort(names) <==> n in multiset(Sort(names));
  }
}

=== FILE: export.dfy ===
/** The fixture round-trip rewriter behind `Database.export_table`
    (tools/utils/database.py). Given the lines of a table's `.sql` fixture
    file and the rows read from the database, every literal
    ``INSERT INTO `table` VALUES (`` line gets its value list replaced by
    the next row's freshly encoded values; every other line is kept. The
    database read and the file read and write are the inputs and output. */
module Export {
  import opened Results
  import opened Text
  import opened Symbols
  import opened ValueCodec

  /** The exceptions that abort an export; the source catches all of them
      and leaves the file unwritten. */
  datatype ExportError =
    | RowsExhausted                  // `rows[row_index]` past the last row
    | MalformedDeclaration           // a `SET @` line with no `=`
    | MissingClose                   // `line.index(");")` on a line without `);`
    | EncodeFailed(cause: EncodeError)

  /** The pattern matched at the start of the stripped, lower-cased line. */
  function InsertPrefix(table: string): string {
    "insert into `" + table + "` values ("
  }

  predicate IsInsertLine(table: string, line: string) {
    HasLowerPrefix(Strip(line), InsertPrefix(table))
  }

  predicate IsDeclarationLine(line: string) {
    StartsWith(Strip(line), "SET @")
  }

  /** A declaration line is never taken for an INSERT line. */
  lemma InsertIsNotDeclaration(table: string, line: string)
    requires IsInsertLine(table, line)
    ensures !IsDeclarationLine(line)
  {
    assert InsertPrefix(table)[0] == 'i';
    assert Strip(line)[0] != 'S';
  }

  /** The INSERT prefix fits inside the original line, so slicing the
      unstripped line at the match length stays in range. */
  lemma InsertPrefixFits(table: string, line: string)
    requires IsInsertLine(table, line)
    ensures |InsertPrefix(table)| <= |line|
  {
    HasLowerPrefixLength(Strip(line), InsertPrefix(table));
  }

  lemma DeclarationHead(s: string, head: string)
    requires StartsWith(s, "SET @") && StartsWith(s, head)
    requires |head| < |s| ==> s[|head|] == '='
    ensures StartsWith(head, "SET @")
  {
    assert forall i :: 0 <= i < 5 ==> s[i] == "SET @"[i];
    assert |head| >= 5;
    assert head[..5] == s[..5];
  }

  lemma WordsOfNonSpace(t: string)
    requires t != [] && !IsSpace(t[0])
    ensures TakeWord(t) != [] && TakeWord(t)[0] == t[0]
    ensures Words(t) == [TakeWord(t)] + Words(t[|TakeWord(t)|..])
  {
    assert TrimStart(t) == t;
  }

  lemma TakeWordSet(h: string)
    requires StartsWith(h, "SET @")
    ensures TakeWord(h) == "SET"
  {
    assert h[3] == ' ' && IsSpace(h[3]);
    assert TakeWord(h) == [h[0]] + TakeWord(h[1..]);
    assert TakeWord(h[1..]) == [h[1]] + TakeWord(h[2..]);
    assert TakeWord(h[2..]) == [h[2]] + TakeWord(h[3..]);
    assert TakeWord(h[3..]) == [];
  }

  lemma WordsAfterSpace(u: string)
    requires |u| >= 2 && IsSpace(u[0]) && !IsSpace(u[1])
    ensures Words(u) == Words(u[1..])
  {
    assert TrimStart(u) == u[1..];
    assert TrimStart(u[1..]) == u[1..];
  }

  lemma WordsOfSet(h: string)
    requires StartsWith(h, "SET @")
    ensures Words(h) == ["SET"] + Words(h[3..])
  {
    WordsOfNonSpace(h);
    TakeWordSet(h);
  }

  lemma WordsOfVariable(rest: string)
    requires StartsWith(rest, " @")
    ensures |Words(rest)| >= 1 && Words(rest)[0] != [] && Words(rest)[0][0] == '@'
  {
    assert rest[..2] == " @";
    assert rest[0] == ' ' && rest[1] == '@';
    WordsAfterSpace(rest);
    var u := rest[1..];
    WordsOfNonSpace(u);
    assert Words(rest)[0] == TakeWord(u);
  }

  lemma SetTail(h: string)
    requires StartsWith(h, "SET @")
    ensures StartsWith(h[3..], " @")
  {
    assert h[..5] == "SET @";
    assert h[3..][..2] == h[3..5];
  }

  /** `"SET @..."` splits into at least two words, the second being the
      `@`-variable. */
  lemma DeclarationWords(h: string)
    requires StartsWith(h, "SET @")
    ensures |Words(h)| >= 2 && Words(h)[1] != [] && Words(h)[1][0] == '@'
  {
    var rest := h[3..];
    SetTail(h);
    WordsOfVariable(rest);
    WordsOfSet(h);
    SecondOf(Words(h), Words(rest));
  }

  lemma SecondOf(ws: seq<string>, wr: seq<string>)
    requires ws == ["SET"] + wr
    requires |wr| >= 1 && wr[0] != [] && wr[0][0] == '@'
    ensures |ws| >= 2 && ws[1] != [] && ws[1][0] == '@'
  {
  }

  /** A `SET @name = value; -- comment` line: the key is the text between
      the first and the second `=`, with every `;` removed, cut at the first
      `--` and trimmed; the name is the second whitespace-separated word. */
  function ParseDeclaration(line: string): (r: Result<(string, string), ExportError>)
    requires IsDeclarationLine(line)
    ensures r.Err? <==> '=' !in Strip(line)
    ensures r.Ok? ==> r.value.1 != [] && r.value.1[0] == '@'
  {
    var s := Strip(line);
    var parts := SplitOn(s, '=');
    if |parts| < 2 then Err(MalformedDeclaration)
    else
      DeclarationHead(s, parts[0]);
      DeclarationWords(parts[0]);
      var value := Strip(UpTo(RemoveChar(parts[1], ';'), "--"));
      Ok((value, Words(parts[0])[1]))
  }

  /** The second word of `SET <name> ` is the name. */
  lemma DeclarationName(name: string)
    requires name != [] && name[0] == '@'
    requires forall i :: 0 <= i < |name| ==> !IsSpace(name[i])
    ensures |Words("SET" + (" " + (name + " ")))| >= 2 && Words("SET" + (" " + (name + " ")))[1] == name
  {
    SecondWord("SET", " ", name, " ");
  }

  /** No `--` starts in `" <value> "` when the value holds none. */
  lemma NoDashInPaddedValue(value: string, t: string, i: int)
    requires !Contains(value, "--")
    requires 0 <= i < |value| + 2
    ensures !OccursAt(" " + (value + (" " + t)), "--", i)
  {
    var u := " " + (value + (" " + t));
    OccursAtPair(u, "--", i);
    if 1 <= i < |value| {
      OccursAtPair(value, "--", i - 1);
      assert u[i] == value[i - 1] && u[i + 1] == value[i];
    } else if i == |value| {
      assert u[i + 1] == ' ';
    } else {
      assert u[i] == ' ';
    }
  }

  /** The value field of a declaration line cut at its first `--`. */
  lemma DeclarationCut(value: string, comment: string)
    requires !Contains(value, "--")
    ensures UpTo(" " + (value + (" " + ("--" + comment))), "--") == " " + value + " "
  {
    var u := " " + (value + (" " + ("--" + comment)));
    var k := |value| + 2;
    forall i | 0 <= i < k ensures !OccursAt(u, "--", i) {
      NoDashInPaddedValue(value, "--" + comment, i);
    }
    OccursAtPair(u, "--", k);
    assert u[k] == '-' && u[k + 1] == '-';
    UpToAt(u, "--", k);
    assert u[..k] == " " + value + " ";
  }

  /** The value field `" <value> --<comment>"` cut at its first `--` and
      stripped is the value. */
  lemma DeclarationValue(value: string, comment: string)
    requires value == [] || (!IsSpace(value[0]) && !IsSpace(value[|value| - 1]))
    requires !Contains(value, "--")
    ensures Strip(UpTo(" " + (value + (" " + ("--" + comment))), "--")) == value
  {
    DeclarationCut(value, comment);
    StripPadded(" ", value, " ");
  }

  /** Removing `;` from the value field of a declaration line. */
  lemma DeclarationSemicolons(raw: string, rest: string)
    ensures RemoveChar(" " + (raw + (";" + (" " + ("--" + rest)))), ';')
         == " " + (RemoveChar(raw, ';') + (" " + ("--" + RemoveChar(rest, ';'))))
  {
    var t := " " + ("--" + rest);
    RemoveCharAppend(" ", raw + (";" + t), ';');
    RemoveCharAppend(raw, ";" + t, ';');
    RemoveCharAppend(";", t, ';');
    RemoveCharAppend(" ", "--" + rest, ';');
    RemoveCharAppend("--", rest, ';');
    assert RemoveChar(";", ';') == [];
  }

  /** The text of a declaration line regrouped around its first `=`. */
  lemma DeclarationShape(name: string, raw: string, rest: string)
    ensures "SET " + name + " = " + raw + "; --" + rest
         == ("SET" + (" " + (name + " "))) + ['='] + (" " + (raw + (";" + (" " + ("--" + rest)))))
  {
    assert "SET " == "SET" + " " && " = " == " " + ['='] + " " && "; --" == ";" + " " + "--";
    Regroup("SET", " ", name, ['='], raw, ";", "--", rest);
  }

  lemma Regroup<T>(w: seq<T>, sp: seq<T>, n: seq<T>, eq: seq<T>, r: seq<T>, semi: seq<T>, dd: seq<T>, t: seq<T>)
    ensures (w + sp) + n + (sp + eq + sp) + r + (semi + sp + dd) + t
         == (w + (sp + (n + sp))) + eq + (sp + (r + (semi + (sp + (dd + t)))))
  {
  }

  /** Stripping a declaration line only cuts into its comment. */
  lemma DeclarationStrip(name: string, raw: string, c: string)
    ensures var p := "SET " + name + " = " + raw + "; --";
      var s := Strip("SET " + name + " = " + raw + "; -- " + c + "\n");
      StartsWith(s, p) && s == p + s[|p|..]
  {
    var p := "SET " + name + " = " + raw + "; --";
    var q := " " + c + "\n";
    assert "SET " + name + " = " + raw + "; -- " + c + "\n" == p + q;
    StripKeepsFront(p, q);
    var s := Strip(p + q);
    assert s == s[..|p|] + s[|p|..];
  }

  lemma DeclarationStartsWithSet(name: string, raw: string)
    requires name != [] && name[0] == '@'
    ensures StartsWith("SET " + name + " = " + raw + "; --", "SET @")
  {
    var p := "SET " + name + " = " + raw + "; --";
    assert p[..5] == "SET @";
  }

  /** The first `=`-separated field is the head; the second is the value
      field, which runs into the comment up to the comment's first `=`. */
  lemma DeclarationSplit(name: string, raw: string, rest: string)
    requires '=' !in name && '=' !in raw
    ensures var a := "SET" + (" " + (name + " "));
      var b := " " + (raw + (";" + (" " + ("--" + rest))));
      var parts := SplitOn(a + ['='] + b, '=');
      |parts| >= 2 && parts[0] == a &&
      parts[1] == " " + (raw + (";" + (" " + ("--" + SplitOn(rest, '=')[0]))))
  {
    var a := "SET" + (" " + (name + " "));
    var b := " " + (raw + (";" + (" " + ("--" + rest))));
    assert '=' !in a;
    SplitOnFirst(a, '=', b);
    ValueFieldHead(raw, rest);
  }

  lemma ValueFieldHead(raw: string, rest: string)
    requires '=' !in raw
    ensures SplitOn(" " + (raw + (";" + (" " + ("--" + rest)))), '=')[0]
         == " " + (raw + (";" + (" " + ("--" + SplitOn(rest, '=')[0]))))
  {
    SplitOnHead("--", rest, '=');
    SplitOnHead(" ", "--" + rest, '=');
    SplitOnHead(";", " " + ("--" + rest), '=');
    SplitOnHead(raw, ";" + (" " + ("--" + rest)), '=');
    SplitOnHead(" ", raw + (";" + (" " + ("--" + rest))), '=');
  }

  /** The parse of a declaration line from its first two `=`-separated
      fields. */
  lemma ParseDeclarationOfFields(line: string, a: string, b: string)
    requires IsDeclarationLine(line)
    requires |SplitOn(Strip(line), '=')| >= 2
    requires SplitOn(Strip(line), '=')[0] == a && SplitOn(Strip(line), '=')[1] == b
    requires |Words(a)| >= 2
    ensures ParseDeclaration(line) == Ok((Strip(UpTo(RemoveChar(b, ';'), "--")), Words(a)[1]))
  {
  }

  /** A `SET <name> = <raw>; -- <comment>` line parses to the pair
      (`raw` without its `;`, `name`), provided the name is one word free of
      `=`, the raw value holds no `=`, and what is left of the value is
      trimmed and holds no `--`. The comment is free: it may hold `=`,
      since only the text between the first two `=` is read. */
  lemma DeclarationParts(name: string, raw: string, c: string)
    requires name != [] && name[0] == '@' && '=' !in name
    requires forall i :: 0 <= i < |name| ==> !IsSpace(name[i])
    requires '=' !in raw
    requires var v := RemoveChar(raw, ';');
      (v == [] || (!IsSpace(v[0]) && !IsSpace(v[|v| - 1]))) && !Contains(v, "--")
    ensures var line := "SET " + name + " = " + raw + "; -- " + c + "\n";
      IsDeclarationLine(line) && ParseDeclaration(line) == Ok((RemoveChar(raw, ';'), name))
  {
    var line := "SET " + name + " = " + raw + "; -- " + c + "\n";
    var p := "SET " + name + " = " + raw + "; --";
    DeclarationStrip(name, raw, c);
    var s := Strip(line);
    var rest := s[|p|..];
    DeclarationShape(name, raw, rest);
    DeclarationSplit(name, raw, rest);
    var r1 := SplitOn(rest, '=')[0];
    var a := "SET" + (" " + (name + " "));
    var b := " " + (raw + (";" + (" " + ("--" + r1))));
    assert SplitOn(s, '=')[0] == a && SplitOn(s, '=')[1] == b;
    DeclarationStartsWithSet(name, raw);
    StartsWithTrans(s, p, "SET @");
    DeclarationName(name);
    ParseDeclarationOfFields(line, a, b);
    DeclarationSemicolons(raw, r1);
    DeclarationValue(RemoveChar(raw, ';'), RemoveChar(r1, ';'));
  }

  /** The round trip the export relies on: a declaration written as
      `SET <name> = <value>; -- <comment>` is read back as (value, name),
      whatever the comment holds: `SET @A = 1; -- x=y` still keys on `1`. */
  lemma DeclarationRoundTrip(name: string, value: string, c: string)
    requires name != [] && name[0] == '@' && '=' !in name
    requires forall i :: 0 <= i < |name| ==> !IsSpace(name[i])
    requires value == [] || (!IsSpace(value[0]) && !IsSpace(value[|value| - 1]))
    requires '=' !in value && ';' !in value && !Contains(value, "--")
    ensures var line := "SET " + name + " = " + value + "; -- " + c + "\n";
      IsDeclarationLine(line) && ParseDeclaration(line) == Ok((value, name))
  {
    assert RemoveChar(value, ';') == value;
    DeclarationParts(name, value, c);
  }

  /** A `;` inside the value is dropped: `SET @x = a;b;` keys on `ab`. */
  lemma DeclarationDropsSemicolon(name: string, a: string, b: string, c: string)
    requires name != [] && name[0] == '@' && '=' !in name
    requires forall i :: 0 <= i < |name| ==> !IsSpace(name[i])
    requires a != [] && b != [] && !IsSpace(a[0]) && !IsSpace(b[|b| - 1])
    requires '=' !in a + b && ';' !in a + b && !Contains(a + b, "--")
    ensures var line := "SET " + name + " = " + a + ";" + b + "; -- " + c + "\n";
      IsDeclarationLine(line) && ParseDeclaration(line) == Ok((a + b, name))
  {
    DropSemicolon(a, b);
    NotInAround('=', a, ";", b);
    var v := a + b;
    assert v[0] == a[0] && v[|v| - 1] == b[|b| - 1];
    DeclarationParts(name, a + ";" + b, c);
    SemicolonLine(name, a, b, c);
  }

  lemma DropSemicolon(a: string, b: string)
    requires ';' !in a + b
    ensures RemoveChar(a + ";" + b, ';') == a + b
  {
    assert ';' !in a && ';' !in b;
    var h := a + ";";
    RemoveCharAppend(a, ";", ';');
    assert RemoveChar(";", ';') == [];
    assert RemoveChar(h, ';') == a;
    RemoveCharAppend(h, b, ';');
  }

  lemma NotInAround<T>(x: T, a: seq<T>, sep: seq<T>, b: seq<T>)
    requires x !in a + b && x !in sep
    ensures x !in a + sep + b
  {
    assert x !in a && x !in b;
  }

  lemma SemicolonLine(name: string, a: string, b: string, c: string)
    ensures "SET " + name + " = " + (a + ";" + b) + "; -- " + c + "\n"
         == "SET " + name + " = " + a + ";" + b + "; -- " + c + "\n"
  {
    var x := "SET " + name + " = ";
    ConcatAssoc(x, a + ";", b);
    ConcatAssoc(x, a, ";");
  }

  /** The symbol table after one line: declarations update it, other lines
      leave it alone. */
  function Declare(t: SymbolTable, line: string): Result<SymbolTable, ExportError> {
    if IsDeclarationLine(line) then
      var d :- ParseDeclaration(line);
      Ok(Put(t, d.0, d.1))
    else Ok(t)
  }

  /** Encodes the values of one row, `column` being the index of `row[0]`;
      the first failure aborts the row. */
  function EncodeColumns(table: string, t: SymbolTable, row: seq<Value>, column: nat): (r: Result<seq<string>, EncodeError>)
    ensures r.Ok? ==> |r.value| == |row|
    decreases |row|
  {
    if row == [] then Ok([])
    else
      var first :- EncodeValue(table, column, row[0], t);
      var rest :- EncodeColumns(table, t, row[1..], column + 1);
      Ok([first] + rest)
  }

  /** Column by column: the row encodes iff every value does, and then
      entry `i` is the encoding of `row[i]` as column `column + i`. */
  lemma {:induction false} EncodeColumnsEach(table: string, t: SymbolTable, row: seq<Value>, column: nat)
    ensures EncodeColumns(table, t, row, column).Ok? <==>
      forall i :: 0 <= i < |row| ==> EncodeValue(table, column + i, row[i], t).Ok?
    ensures EncodeColumns(table, t, row, column).Ok? ==>
      forall i :: 0 <= i < |row| ==> EncodeValue(table, column + i, row[i], t) == Ok(EncodeColumns(table, t, row, column).value[i])
    decreases |row|
  {
    if row != [] {
      EncodeColumnsEach(table, t, row[1..], column + 1);
      var r := EncodeColumns(table, t, row, column);
      var rest := EncodeColumns(table, t, row[1..], column + 1);
      forall i | 1 <= i < |row|
        ensures EncodeValue(table, column + i, row[i], t) == EncodeValue(table, column + 1 + (i - 1), row[1..][i - 1], t)
      {
      }
      if r.Ok? {
        assert r.value == [EncodeValue(table, column, row[0], t).value] + rest.value;
      }
    }
  }

  /** The original line cut at the end of the match. The match was made on
      the stripped line but the cut is made on the line itself, so leading
      whitespace shifts it. */
  function InsertHead(table: string, line: string): (r: string)
    requires IsInsertLine(table, line)
    ensures |r| == |InsertPrefix(table)| && StartsWith(line, r)
  {
    InsertPrefixFits(table, line);
    line[..|InsertPrefix(table)|]
  }

  /** An indented INSERT line is matched after stripping but cut before
      stripping, so the cut falls `|pad|` characters short of the end of
      the match: the rebuilt line loses the tail of `VALUES (` (two spaces
      of indent turn ``  INSERT INTO `t` VALUES (1);`` into a head ending
      in `VALUES`). */
  lemma IndentedInsertHead(table: string, pad: string, core: string, tail: string)
    requires forall i :: 0 <= i < |pad| ==> IsSpace(pad[i])
    requires forall i :: 0 <= i < |tail| ==> IsSpace(tail[i])
    requires core != [] && !IsSpace(core[0]) && !IsSpace(core[|core| - 1])
    requires HasLowerPrefix(core, InsertPrefix(table))
    requires |pad| <= |InsertPrefix(table)|
    ensures IsInsertLine(table, pad + core + tail) && |InsertPrefix(table)| <= |core|
    ensures InsertHead(table, pad + core + tail) == pad + core[..|InsertPrefix(table)| - |pad|]
  {
    StripPadded(pad, core, tail);
    HasLowerPrefixLength(core, InsertPrefix(table));
    TakeOfCat(pad, core, tail, |InsertPrefix(table)|);
  }

  /** What follows the new `);` on a rebuilt line. A line that contains
      `--` anywhere keeps everything after its first `);` verbatim (the
      source re-assembles it from the part before the comment and the
      rest); such a line without `);` makes `index` raise. Any other line
      gets a single newline. */
  function KeptTail(line: string): (r: Option<string>)
    ensures r.None? <==> Contains(line, "--") && !Contains(line, ");")
    ensures r.Some? && !Contains(line, "--") ==> r.value == "\n"
    ensures r.Some? && Contains(line, "--") ==>
      var end := |line| - |r.value|;
      EndsWith(line, r.value) && OccursAt(line, ");", end - 2) &&
      forall i :: 0 <= i < end - 2 ==> !OccursAt(line, ");", i)
  {
    if !Contains(line, "--") then Some("\n")
    else
      match IndexOf(line, ");")
      case None => None
      case Some(i) =>
        var end := i + 2;
        var beforeComment := UpTo(line[end..], "--");
        assert beforeComment + line[end + |beforeComment|..] == line[end..];
        Some(beforeComment + line[end + |beforeComment|..])
  }

  /** Rebuilds one INSERT line from the encoded row. */
  function RewriteLine(table: string, line: string, row: seq<Value>, t: SymbolTable): Result<string, ExportError>
    requires IsInsertLine(table, line)
  {
    match EncodeColumns(table, t, row, 0)
    case Err(e) => Err(EncodeFailed(e))
    case Ok(values) =>
      var updated := InsertHead(table, line) + Join(",", values) + ");";
      match KeptTail(line)
      case None => Err(MissingClose)
      case Some(tail) => Ok(updated + tail)
  }

  /** The rebuilt line is the original line up to the match end, the
      values joined by `,`, `);`, then the kept tail; it fails exactly when
      a value cannot be encoded or a commented line has no `);`. */
  lemma RewriteLineResult(table: string, line: string, row: seq<Value>, t: SymbolTable)
    requires IsInsertLine(table, line)
    ensures RewriteLine(table, line, row, t).Err? <==> EncodeColumns(table, t, row, 0).Err? || KeptTail(line).None?
    ensures RewriteLine(table, line, row, t).Ok? ==>
      RewriteLine(table, line, row, t).value ==
        InsertHead(table, line) + Join(",", EncodeColumns(table, t, row, 0).value) + ");" + KeptTail(line).value
  {
  }

  /** Where the walk through the file stands: the declarations seen so far
      and the index of the next unused row. */
  datatype Cursor = Cursor(symbols: SymbolTable, next: nat)

  /** One line of the walk: record a declaration, then either rebuild an
      INSERT line from the next row or keep the line as it is. */
  function RewriteStep(table: string, rows: seq<seq<Value>>, c: Cursor, line: string): Result<(Cursor, string), ExportError> {
    var symbols :- Declare(c.symbols, line);
    if IsInsertLine(table, line) then
      if c.next >= |rows| then Err(RowsExhausted)
      else
        var updated :- RewriteLine(table, line, rows[c.next], symbols);
        Ok((Cursor(symbols, c.next + 1), updated))
    else Ok((Cursor(symbols, c.next), line))
  }

  lemma StepCursor(table: string, rows: seq<seq<Value>>, c: Cursor, line: string)
    requires RewriteStep(table, rows, c, line).Ok?
    ensures Declare(c.symbols, line).Ok?
    ensures RewriteStep(table, rows, c, line).value.0 == Cursor(Declare(c.symbols, line).value, c.next + (if IsInsertLine(table, line) then 1 else 0))
  {
  }

  /** A step keeps every line that is not an INSERT line. */
  lemma StepKeeps(table: string, rows: seq<seq<Value>>, c: Cursor, line: string)
    requires RewriteStep(table, rows, c, line).Ok? && !IsInsertLine(table, line)
    ensures RewriteStep(table, rows, c, line).value.1 == line
  {
  }

  /** A step on an INSERT line rebuilds it from the cursor's row with the
      cursor's symbols. */
  lemma StepInsert(table: string, rows: seq<seq<Value>>, c: Cursor, line: string)
    requires RewriteStep(table, rows, c, line).Ok? && IsInsertLine(table, line)
    ensures RebuiltFrom(table, line, rows, c.next, Ok(c.symbols), RewriteStep(table, rows, c, line).value.1)
  {
    InsertIsNotDeclaration(table, line);
  }

  /** Rewrites `lines` from cursor `c` onwards, one output line per input line. */
  function RewriteLines(table: string, rows: seq<seq<Value>>, c: Cursor, lines: seq<string>): Result<seq<string>, ExportError>
    decreases |lines|
  {
    if lines == [] then Ok([])
    else
      var step :- RewriteStep(table, rows, c, lines[0]);
      var rest :- RewriteLines(table, rows, step.0, lines[1..]);
      Ok([step.1] + rest)
  }

  /** `export_table` between its reads and its write: the new file lines,
      or the exception that stops it. */
  function ExportTable(table: string, lines: seq<string>, rows: seq<seq<Value>>): Result<seq<string>, ExportError> {
    RewriteLines(table, rows, Cursor([], 0), lines)
  }

  /** The file's lines after `export_table`: the exception is caught before
      the write, so a failed export leaves the file as it was. Either way the
      file keeps its line count and every line other than an INSERT line. */
  function FileAfterExport(table: string, lines: seq<string>, rows: seq<seq<Value>>): (r: seq<string>)
    ensures ExportTable(table, lines, rows).Err? ==> r == lines
    ensures |r| == |lines|
    ensures forall j :: 0 <= j < |lines| && !IsInsertLine(table, lines[j]) ==> r[j] == lines[j]
  {
    match ExportTable(table, lines, rows)
    case Err(_) => lines
    case Ok(out) =>
      RewriteLinesLength(table, rows, Cursor([], 0), lines, out);
      assert forall j :: 0 <= j < |lines| && !IsInsertLine(table, lines[j]) ==> out[j] == lines[j] by {
        forall j | 0 <= j < |lines| && !IsInsertLine(table, lines[j]) ensures out[j] == lines[j] {
          RewriteLinesCopies(table, rows, Cursor([], 0), lines, out, j);
        }
      }
      out
  }

  /** Number of INSERT lines among `lines`. */
  function InsertCount(table: string, lines: seq<string>): nat
    decreases |lines|
  {
    if lines == [] then 0
    else (if IsInsertLine(table, lines[0]) then 1 else 0) + InsertCount(table, lines[1..])
  }

  /** The symbol table after every declaration among `lines`, from `t`. */
  function DeclareAll(t: SymbolTable, lines: seq<string>): Result<SymbolTable, ExportError>
    decreases |lines|
  {
    if lines == [] then Ok(t)
    else
      var t' :- Declare(t, lines[0]);
      DeclareAll(t', lines[1..])
  }

  /** Output line `out` for the INSERT line `lines[j]` is that line rebuilt
      from the row after the ones used by earlier INSERT lines, with the
      declarations made on earlier lines. */
  predicate FilledFromRow(table: string, rows: seq<seq<Value>>, c: Cursor, lines: seq<string>, j: nat, out: string)
    requires j < |lines|
  {
    RebuiltFrom(table, lines[j], rows, c.next + InsertCount(table, lines[..j]), DeclareAll(c.symbols, lines[..j]), out)
  }

  /** `line` is an INSERT line and `out` is that line rebuilt from
      `rows[k]` with the symbol table `symbols`, which exist. */
  predicate RebuiltFrom(table: string, line: string, rows: seq<seq<Value>>, k: int, symbols: Result<SymbolTable, ExportError>, out: string)
  {
    && IsInsertLine(table, line)
    && 0 <= k < |rows|
    && symbols.Ok?
    && RewriteLine(table, line, rows[k], symbols.value) == Ok(out)
  }

  lemma {:induction false} RewriteLinesLength(table: string, rows: seq<seq<Value>>, c: Cursor, lines: seq<string>, out: seq<string>)
    requires RewriteLines(table, rows, c, lines) == Ok(out)
    ensures |out| == |lines|
    decreases |lines|
  {
    if lines != [] {
      var step := RewriteStep(table, rows, c, lines[0]).value;
      var rest := RewriteLines(table, rows, step.0, lines[1..]).value;
      assert out == [step.1] + rest;
      RewriteLinesLength(table, rows, step.0, lines[1..], rest);
    }
  }

  lemma {:induction false} RewriteLinesCopies(table: string, rows: seq<seq<Value>>, c: Cursor, lines: seq<string>, out: seq<string>, j: nat)
    requires RewriteLines(table, rows, c, lines) == Ok(out)
    requires j < |lines| && !IsInsertLine(table, lines[j])
    ensures j < |out| && out[j] == lines[j]
    decreases j
  {
    RewriteLinesSplit(table, rows, c, lines, out);
    if j > 0 {
      assert lines[1..][j - 1] == lines[j];
      RewriteLinesCopies(table, rows, RewriteStep(table, rows, c, lines[0]).value.0, lines[1..], out[1..], j - 1);
    } else {
      StepKeeps(table, rows, c, lines[0]);
    }
  }

  lemma InsertCountCons(table: string, lines: seq<string>, j: nat)
    requires 0 < j <= |lines|
    ensures InsertCount(table, lines[..j]) == (if IsInsertLine(table, lines[0]) then 1 else 0) + InsertCount(table, lines[1..][..j - 1])
  {
    assert lines[..j][0] == lines[0];
    assert lines[..j][1..] == lines[1..][..j - 1];
  }

  lemma DeclareAllCons(t: SymbolTable, lines: seq<string>, j: nat)
    requires 0 < j <= |lines| && Declare(t, lines[0]).Ok?
    ensures DeclareAll(t, lines[..j]) == DeclareAll(Declare(t, lines[0]).value, lines[1..][..j - 1])
  {
    assert lines[..j][0] == lines[0];
    assert lines[..j][1..] == lines[1..][..j - 1];
  }

  /** An INSERT line at the head of the file is filled from the cursor's
      row with the cursor's symbols. */
  lemma FillsHead(table: string, rows: seq<seq<Value>>, c: Cursor, lines: seq<string>, out: seq<string>)
    requires |lines| > 0 && IsInsertLine(table, lines[0])
    requires RewriteLines(table, rows, c, lines) == Ok(out)
    ensures |out| > 0 && FilledFromRow(table, rows, c, lines, 0, out[0])
  {
    RewriteLinesSplit(table, rows, c, lines, out);
    StepInsert(table, rows, c, lines[0]);
    NothingAbove(table, c, lines);
    RebuiltCongruence(table, lines[0], lines[0], rows, c.next + InsertCount(table, lines[..0]), c.next,
      DeclareAll(c.symbols, lines[..0]), Ok(c.symbols), out[0]);
  }

  lemma RewriteLinesSplit(table: string, rows: seq<seq<Value>>, c: Cursor, lines: seq<string>, out: seq<string>)
    requires |lines| > 0 && RewriteLines(table, rows, c, lines) == Ok(out)
    ensures RewriteStep(table, rows, c, lines[0]).Ok?
    ensures |out| > 0 && out[0] == RewriteStep(table, rows, c, lines[0]).value.1
    ensures RewriteLines(table, rows, RewriteStep(table, rows, c, lines[0]).value.0, lines[1..]) == Ok(out[1..])
  {
    var step := RewriteStep(table, rows, c, lines[0]).value;
    var rest := RewriteLines(table, rows, step.0, lines[1..]).value;
    assert out == [step.1] + rest;
  }

  lemma NothingAbove(table: string, c: Cursor, lines: seq<string>)
    ensures InsertCount(table, lines[..0]) == 0
    ensures DeclareAll(c.symbols, lines[..0]) == Ok(c.symbols)
  {
    assert lines[..0] == [];
  }

  /** Filling from the cursor after the first line is filling from the
      cursor before it, one line further down. */
  lemma CountShift(table: string, c: Cursor, c': Cursor, lines: seq<string>, j: nat)
    requires 0 < j <= |lines|
    requires c'.next == c.next + (if IsInsertLine(table, lines[0]) then 1 else 0)
    ensures c'.next + InsertCount(table, lines[1..][..j - 1]) == c.next + InsertCount(table, lines[..j])
  {
    InsertCountCons(table, lines, j);
  }

  lemma DeclareShift(c: Cursor, c': Cursor, lines: seq<string>, j: nat)
    requires 0 < j <= |lines|
    requires Declare(c.symbols, lines[0]) == Ok(c'.symbols)
    ensures DeclareAll(c'.symbols, lines[1..][..j - 1]) == DeclareAll(c.symbols, lines[..j])
  {
    DeclareAllCons(c.symbols, lines, j);
  }

  lemma FillsShift(table: string, rows: seq<seq<Value>>, c: Cursor, c': Cursor, lines: seq<string>, j: nat, o: string)
    requires 0 < j < |lines|
    requires c'.next + InsertCount(table, lines[1..][..j - 1]) == c.next + InsertCount(table, lines[..j])
    requires DeclareAll(c'.symbols, lines[1..][..j - 1]) == DeclareAll(c.symbols, lines[..j])
    requires FilledFromRow(table, rows, c', lines[1..], j - 1, o)
    ensures FilledFromRow(table, rows, c, lines, j, o)
  {
    assert lines[1..][j - 1] == lines[j];
    RebuiltCongruence(table, lines[j], lines[1..][j - 1], rows,
      c.next + InsertCount(table, lines[..j]), c'.next + InsertCount(table, lines[1..][..j - 1]),
      DeclareAll(c.symbols, lines[..j]), DeclareAll(c'.symbols, lines[1..][..j - 1]), o);
  }

  lemma RebuiltCongruence(table: string, line: string, line': string, rows: seq<seq<Value>>, k: int, k': int,
                          symbols: Result<SymbolTable, ExportError>, symbols': Result<SymbolTable, ExportError>, out: string)
    requires line' == line && k' == k && symbols' == symbols
    requires RebuiltFrom(table, line', rows, k', symbols', out)
    ensures RebuiltFrom(table, line, rows, k, symbols, out)
  {
  }

  lemma {:induction false} RewriteLinesFills(table: string, rows: seq<seq<Value>>, c: Cursor, lines: seq<string>, out: seq<string>, j: nat)
    requires RewriteLines(table, rows, c, lines) == Ok(out)
    requires j < |lines| && IsInsertLine(table, lines[j])
    ensures j < |out| && FilledFromRow(table, rows, c, lines, j, out[j])
    decreases j
  {
    if j == 0 {
      FillsHead(table, rows, c, lines, out);
    } else {
      RewriteLinesSplit(table, rows, c, lines, out);
      var c' := RewriteStep(table, rows, c, lines[0]).value.0;
      assert lines[1..][j - 1] == lines[j];
      RewriteLinesFills(table, rows, c', lines[1..], out[1..], j - 1);
      FillsAfterStep(table, rows, c, lines, j, out[1..][j - 1]);
      assert out[1..][j - 1] == out[j];
    }
  }

  /** Filling from the cursor after the first step is filling from the
      cursor before it, one line further down. */
  lemma FillsAfterStep(table: string, rows: seq<seq<Value>>, c: Cursor, lines: seq<string>, j: nat, o: string)
    requires 0 < j < |lines| && IsInsertLine(table, lines[j])
    requires RewriteStep(table, rows, c, lines[0]).Ok?
    requires FilledFromRow(table, rows, RewriteStep(table, rows, c, lines[0]).value.0, lines[1..], j - 1, o)
    ensures FilledFromRow(table, rows, c, lines, j, o)
  {
    var c' := RewriteStep(table, rows, c, lines[0]).value.0;
    StepCursor(table, rows, c, lines[0]);
    CountShift(table, c, c', lines, j);
    DeclareShift(c, c', lines, j);
    FillsShift(table, rows, c, c', lines, j, o);
  }

  /** The export produces exactly one line per input line. */
  lemma ExportKeepsLineCount(table: string, lines: seq<string>, rows: seq<seq<Value>>)
    requires ExportTable(table, lines, rows).Ok?
    ensures |ExportTable(table, lines, rows).value| == |lines|
  {
    RewriteLinesLength(table, rows, Cursor([], 0), lines, ExportTable(table, lines, rows).value);
  }

  /** Lines that are not INSERT lines are copied verbatim. */
  lemma ExportCopiesOtherLines(table: string, lines: seq<string>, rows: seq<seq<Value>>, j: nat)
    requires ExportTable(table, lines, rows).Ok?
    requires j < |lines| && !IsInsertLine(table, lines[j])
    ensures j < |ExportTable(table, lines, rows).value|
    ensures ExportTable(table, lines, rows).value[j] == lines[j]
  {
    RewriteLinesCopies(table, rows, Cursor([], 0), lines, ExportTable(table, lines, rows).value, j);
  }

  /** The k-th INSERT line is rebuilt from `rows[k]`, using the
      declarations made above it in the file. */
  lemma ExportFillsInsertsInOrder(table: string, lines: seq<string>, rows: seq<seq<Value>>, j: nat)
    requires ExportTable(table, lines, rows).Ok?
    requires j < |lines| && IsInsertLine(table, lines[j])
    ensures InsertCount(table, lines[..j]) < |rows|
    ensures DeclareAll([], lines[..j]).Ok?
    ensures j < |ExportTable(table, lines, rows).value|
    ensures RewriteLine(table, lines[j], rows[InsertCount(table, lines[..j])], DeclareAll([], lines[..j]).value)
            == Ok(ExportTable(table, lines, rows).value[j])
  {
    var out := ExportTable(table, lines, rows).value;
    RewriteLinesFills(table, rows, Cursor([], 0), lines, out, j);
    assert FilledFromRow(table, rows, Cursor([], 0), lines, j, out[j]);
  }

  lemma {:induction false} RewriteLinesNeedRows(table: string, rows: seq<seq<Value>>, c: Cursor, lines: seq<string>)
    requires c.next <= |rows| < c.next + InsertCount(table, lines)
    ensures RewriteLines(table, rows, c, lines).Err?
    decreases |lines|
  {
    if RewriteStep(table, rows, c, lines[0]).Ok? {
      var step := RewriteStep(table, rows, c, lines[0]).value;
      StepCursor(table, rows, c, lines[0]);
      RewriteLinesNeedRows(table, rows, step.0, lines[1..]);
    }
  }

  /** More INSERT lines than rows: the export raises, so nothing is written. */
  lemma ExportFailsWhenRowsRunOut(table: string, lines: seq<string>, rows: seq<seq<Value>>)
    requires InsertCount(table, lines) > |rows|
    ensures ExportTable(table, lines, rows).Err?
    ensures FileAfterExport(table, lines, rows) == lines
  {
    RewriteLinesNeedRows(table, rows, Cursor([], 0), lines);
  }
}

=== FILE: numbers.dfy ===
/** Python integer text and bit operations used by the value encoder:
    `str(n)` for an int, `int(s)` for a declared constant's text, and `&`
    on unbounded two's-complement integers. */
module Numbers {
  import opened Results
  import opened Text

  predicate IsDigit(c: char) {
    '0' <= c <= '9'
  }

  function DigitValue(c: char): nat
    requires IsDigit(c)
  {
    c as int - '0' as int
  }

  function DigitChar(d: nat): (c: char)
    requires d < 10
    ensures IsDigit(c) && DigitValue(c) == d
  {
    ('0' as int + d) as char
  }

  predicate AllDigits(s: string) {
    forall i :: 0 <= i < |s| ==> IsDigit(s[i])
  }

  /** Decimal digits of a natural number, most significant first, no
      leading zeros. */
  function NatDigits(n: nat): (r: string)
    ensures |r| >= 1 && AllDigits(r)
    decreases n
  {
    if n < 10 then [DigitChar(n)] else NatDigits(n / 10) + [DigitChar(n % 10)]
  }

  /** Python's `str(n)` for an int. */
  function Decimal(n: int): string {
    if n < 0 then "-" + NatDigits(-n) else NatDigits(n)
  }

  /** Value of a run of decimal digits. */
  function DigitsValue(d: string): nat
    requires AllDigits(d)
    decreases |d|
  {
    if d == [] then 0 else DigitsValue(d[..|d| - 1]) * 10 + DigitValue(d[|d| - 1])
  }

  /** The digit part Python's `int()` accepts: digits, with single
      underscores allowed between two digits. */
  predicate IsDigitGroups(t: string) {
    && |t| > 0
    && IsDigit(t[0])
    && forall i :: 0 <= i < |t| ==> GroupChar(t, i)
  }

  /** Position `i` holds a digit, or an underscore followed by a digit. */
  predicate GroupChar(t: string, i: nat)
    requires i < |t|
  {
    IsDigit(t[i]) || (t[i] == '_' && i + 1 < |t| && IsDigit(t[i + 1]))
  }

  function ParseUnsigned(t: string): (r: Option<nat>)
    ensures r.Some? <==> IsDigitGroups(t)
  {
    if IsDigitGroups(t) then
      var d := RemoveChar(t, '_');
      assert AllDigits(d) by {
        forall i | 0 <= i < |d| ensures IsDigit(d[i]) {
          assert d[i] != '_';
          var j :| 0 <= j < |t| && t[j] == d[i];
          assert GroupChar(t, j);
        }
      }
      Some(DigitsValue(d))
    else None
  }

  /** Python's `int(s)` for a base-10 string: surrounding whitespace, an
      optional sign, then digit groups; anything else raises, here `None`. */
  function ParseInt(s: string): Option<int> {
    var t := Strip(s);
    if |t| > 0 && (t[0] == '+' || t[0] == '-') then
      match ParseUnsigned(t[1..])
      case None => None
      case Some(m) =>
        var v: int := m;
        if t[0] == '-' then Some(-v) else Some(v)
    else
      match ParseUnsigned(t)
      case None => None
      case Some(m) => Some(m)
  }

  lemma {:induction false} NatDigitsValue(n: nat)
    ensures DigitsValue(NatDigits(n)) == n
    decreases n
  {
    if n >= 10 {
      var d := NatDigits(n);
      NatDigitsValue(n / 10);
      assert d[..|d| - 1] == NatDigits(n / 10);
    }
  }

  lemma ParseUnsignedDigits(n: nat)
    ensures ParseUnsigned(NatDigits(n)) == Some(n)
  {
    var d := NatDigits(n);
    NatDigitsValue(n);
    assert forall i :: 0 <= i < |d| ==> GroupChar(d, i);
    assert RemoveChar(d, '_') == d;
  }

  /** Reading back `str(n)` with `int()` gives `n`. */
  lemma {:induction false} DecimalRoundTrip(n: int)
    ensures ParseInt(Decimal(n)) == Some(n)
  {
    if n < 0 {
      var m: nat := -n;
      assert Decimal(n) == "-" + NatDigits(m);
      NegativeRoundTrip(m);
    } else {
      assert Decimal(n) == NatDigits(n);
      NaturalRoundTrip(n);
    }
  }

  lemma {:induction false} NaturalRoundTrip(m: nat)
    ensures ParseInt(NatDigits(m)) == Some(m as int)
  {
    var d := NatDigits(m);
    assert IsDigit(d[0]) && IsDigit(d[|d| - 1]);
    StripOfTrimmed(d);
    ParseUnsignedDigits(m);
    ParseIntUnsigned(d, m);
  }

  lemma {:induction false} NegativeRoundTrip(m: nat)
    requires m > 0
    ensures ParseInt("-" + NatDigits(m)) == Some(-(m as int))
  {
    var d := NatDigits(m);
    var s := "-" + d;
    assert s[0] == '-' && s[|s| - 1] == d[|d| - 1];
    assert IsDigit(d[|d| - 1]);
    StripOfTrimmed(s);
    assert s[1..] == d;
    ParseUnsignedDigits(m);
    ParseIntNegative(s, m);
  }

  lemma {:induction false} ParseIntUnsigned(t: string, m: nat)
    requires Strip(t) == t && t != [] && t[0] != '+' && t[0] != '-'
    requires ParseUnsigned(t) == Some(m)
    ensures ParseInt(t) == Some(m as int)
  {
  }

  lemma {:induction false} ParseIntNegative(t: string, m: nat)
    requires Strip(t) == t && t != [] && t[0] == '-'
    requires ParseUnsigned(t[1..]) == Some(m)
    ensures ParseInt(t) == Some(-(m as int))
  {
  }

  function Abs(x: int): nat {
    if x < 0 then -x else x
  }

  lemma HalfShrinks(x: int)
    requires x != 0 && x != -1
    ensures Abs(x / 2) < Abs(x)
  {
  }

  /** Python's `a & b` on unbounded integers, read as infinite two's
      complement (so `-1` has every bit set). */
  function BitAnd(a: int, b: int): int
    decreases Abs(a) + Abs(b)
  {
    if a == 0 || b == 0 then 0
    else if a == -1 then b
    else if b == -1 then a
    else
      HalfShrinks(a);
      HalfShrinks(b);
      2 * BitAnd(a / 2, b / 2) + (a % 2) * (b % 2)
  }

  /** Bit `k` of `x` in two's complement. */
  predicate Bit(x: int, k: nat)
    decreases k
  {
    if k == 0 then x % 2 == 1 else Bit(x / 2, k - 1)
  }

  lemma {:induction false} ZeroHasNoBits(k: nat)
    ensures !Bit(0, k)
    decreases k
  {
    if k > 0 {
      ZeroHasNoBits(k - 1);
    }
  }

  lemma {:induction false} MinusOneHasAllBits(k: nat)
    ensures Bit(-1, k)
    decreases k
  {
    if k > 0 {
      MinusOneHasAllBits(k - 1);
    }
  }

  /** `&` is bitwise: bit `k` of `a & b` is set exactly when it is set in both. */
  lemma {:induction false} BitAndBits(a: int, b: int, k: nat)
    ensures Bit(BitAnd(a, b), k) <==> Bit(a, k) && Bit(b, k)
    decreases k
  {
    if a == 0 {
      ZeroHasNoBits(k);
    } else if b == 0 {
      ZeroHasNoBits(k);
    } else if a == -1 {
      MinusOneHasAllBits(k);
    } else if b == -1 {
      MinusOneHasAllBits(k);
    } else {
      BitAndStep(a, b);
      if k > 0 {
        BitAndBits(a / 2, b / 2, k - 1);
      }
    }
  }

  /** One step of the recursion: the low bit of `a & b`, and the rest. */
  lemma BitAndStep(a: int, b: int)
    requires a != 0 && b != 0 && a != -1 && b != -1
    ensures BitAnd(a, b) % 2 == (if a % 2 == 1 && b % 2 == 1 then 1 else 0)
    ensures BitAnd(a, b) / 2 == BitAnd(a / 2, b / 2)
  {
    var q := BitAnd(a / 2, b / 2);
    var low := if a % 2 == 1 && b % 2 == 1 then 1 else 0;
    assert (a % 2) * (b % 2) == low by {
      if a % 2 == 0 {
        assert (a % 2) * (b % 2) == 0 * (b % 2);
      } else {
        assert (a % 2) * (b % 2) == b % 2;
      }
    }
    assert BitAnd(a, b) == 2 * q + low;
  }

  lemma {:induction false} NonZeroHasBit(x: int)
    requires x != 0
    ensures exists k: nat :: Bit(x, k)
    decreases Abs(x)
  {
    if x % 2 == 1 {
      assert Bit(x, 0);
    } else {
      assert x / 2 != 0;
      HalfShrinks(x);
      NonZeroHasBit(x / 2);
      var k: nat :| Bit(x / 2, k);
      assert Bit(x, k + 1);
    }
  }

  /** `a & b` is truthy exactly when `a` and `b` share a set bit. */
  lemma BitAndNonZero(a: int, b: int)
    ensures BitAnd(a, b) != 0 <==> exists k: nat :: Bit(a, k) && Bit(b, k)
  {
    if BitAnd(a, b) != 0 {
      NonZeroHasBit(BitAnd(a, b));
      var k: nat :| Bit(BitAnd(a, b), k);
      BitAndBits(a, b, k);
    }
    if exists k: nat :: Bit(a, k) && Bit(b, k) {
      var k: nat :| Bit(a, k) && Bit(b, k);
      BitAndBits(a, b, k);
      if BitAnd(a, b) == 0 {
        ZeroHasNoBits(k);
      }
    }
  }
}

=== FILE: paths.dfy ===
/** POSIX path handling as Python's `os.path` does it on the server's
    host: `join`, the last `/`-separated component, and dropping a fixed
    number of trailing characters (`s[:-n]`). */
module Paths {
  import opened Results
  import opened Text

  /** `os.path.join(a, b)` with `/` as separator: an absolute `b` replaces
      `a`; otherwise a separator is added unless `a` is empty or already
      ends in one. */
  function JoinPath(a: string, b: string): (r: string)
    ensures StartsWith(b, "/") ==> r == b
    ensures EndsWith(r, b)
    ensures !StartsWith(b, "/") && a != [] && !EndsWith(a, "/") ==> r == a + "/" + b
    ensures !StartsWith(b, "/") && (a == [] || EndsWith(a, "/")) ==> r == a + b
  {
    if StartsWith(b, "/") then b
    else if a == [] || EndsWith(a, "/") then a + b
    else a + "/" + b
  }

  /** `s.split("/")[-1]`: what follows the last separator. */
  function LastComponent(s: string): (r: string)
    decreases |s|
  {
    if s == [] || s[|s| - 1] == '/' then []
    else LastComponent(s[..|s| - 1]) + [s[|s| - 1]]
  }

  /** The last component is a separator-free suffix that starts right after
      a separator or at the start. */
  lemma {:induction false} LastComponentMeaning(s: string)
    ensures '/' !in LastComponent(s)
    ensures EndsWith(s, LastComponent(s))
    ensures |LastComponent(s)| < |s| ==> s[|s| - |LastComponent(s)| - 1] == '/'
    decreases |s|
  {
    if s != [] && s[|s| - 1] != '/' {
      var f := s[..|s| - 1];
      LastComponentMeaning(f);
      var r := LastComponent(f);
      assert LastComponent(s) == r + [s[|s| - 1]];
      assert s[|s| - |r| - 1..] == f[|f| - |r|..] + [s[|s| - 1]];
      if |r| < |f| {
        assert s[|s| - |r| - 2] == f[|f| - |r| - 1];
      }
    }
  }

  /** `s[:-n]` for a positive `n`: empty once `s` is shorter than `n`. */
  function DropLast(s: string, n: nat): (r: string)
    requires n > 0
    ensures |s| >= n ==> r == s[..|s| - n]
    ensures |s| < n ==> r == []
  {
    if |s| >= n then s[..|s| - n] else []
  }

  /** After a separator (or at the start) a separator-free name is the
      last component. */
  lemma {:induction false} LastComponentAfterSeparator(prefix: string, name: string)
    requires prefix == [] || prefix[|prefix| - 1] == '/'
    requires '/' !in name
    ensures LastComponent(prefix + name) == name
    decreases |name|
  {
    var p := prefix + name;
    if name == [] {
      assert p == prefix;
    } else {
      var n := |name|;
      assert p[|p| - 1] == name[n - 1];
      assert p[..|p| - 1] == prefix + name[..n - 1];
      LastComponentAfterSeparator(prefix, name[..n - 1]);
      assert name[..n - 1] + [name[n - 1]] == name;
    }
  }

  /** The last component of a joined path is the relative name itself when
      that name has no separator of its own. */
  lemma {:induction false} LastComponentOfJoin(dir: string, name: string)
    requires '/' !in name
    ensures LastComponent(JoinPath(dir, name)) == name
  {
    assert name == [] || name[0] != '/';
    assert !StartsWith(name, "/");
    if dir == [] || EndsWith(dir, "/") {
      assert JoinPath(dir, name) == dir + name;
      assert dir == [] || dir[|dir| - 1] == '/';
      LastComponentAfterSeparator(dir, name);
    } else {
      assert JoinPath(dir, name) == (dir + "/") + name;
      LastComponentAfterSeparator(dir + "/", name);
    }
  }
}

=== FILE: results.dfy ===
/** Failure-compatible wrappers shared by the whole model.
    `Option` stands for Python's use of `None` as "absent"; `Result` for a
    computation that either produces a value or raises. */
module Results {

  datatype Option<+T> = None | Some(value: T) {
    predicate IsFailure() {
      None?
    }

    function PropagateFailure<U>(): Option<U>
      requires None?
    {
      None
    }

    function Extract(): T
      requires Some?
    {
      value
    }
  }

  datatype Result<+T, +E> = Ok(value: T) | Err(error: E) {
    predicate IsFailure() {
      Err?
    }

    function PropagateFailure<U>(): Result<U, E>
      requires Err?
    {
      Err(error)
    }

    function Extract(): T
      requires Ok?
    {
      value
    }
  }
}

=== FILE: settings.dfy ===
/** The settings loader: every file in `settings/default/` and then in
    `settings/` contributes `key = value` lines to a group named after the
    file, later files overriding earlier ones key by key. */
module Settings {
  import opened Results
  import opened Text
  import opened Paths

  /** One setting group: key to raw value text. */
  type Group = map<string, string>

  /** All groups, by group name (the file name without its extension). */
  type Table = map<string, Group>

  /** A directory entry as the loader sees it: the name `listdir` gives,
      whether it is a regular file, and the lines `readlines` gives. */
  datatype Entry = Entry(name: string, isFile: bool, lines: seq<string>)

  /** What one line does to its group. */
  datatype LineEffect =
    | Stop                                  // an empty line ends the file
    | Skip                                  // a commented-out key
    | Touch                                 // no `=`: the group is recorded, nothing set
    | Assign(key: string, value: string)

  /** The value clean-up after the comment is cut: drop one leading `"`,
      then one trailing `,`, then one trailing `"`. */
  function Peel(v: string): (r: string)
    ensures |r| <= |v| <= |r| + 3
  {
    var v1 := if StartsWith(v, "\"") then v[1..] else v;
    var v2 := if EndsWith(v1, ",") then v1[..|v1| - 1] else v1;
    if EndsWith(v2, "\"") then v2[..|v2| - 1] else v2
  }

  /** A value written the usual way, `"text",`, peels back to `text`,
      whatever `text` holds (quotes and commas included). */
  lemma {:induction false} PeelQuoted(text: string)
    ensures Peel("\"" + text + "\",") == text
  {
    var v := "\"" + text + "\",";
    assert v[1..] == text + "\",";
    assert (text + "\",")[..|text| + 1] == text + "\"";
    assert (text + "\"")[..|text|] == text;
  }

  /** A bare value with nothing to peel is kept as it is. */
  lemma {:induction false} PeelBare(text: string)
    requires !StartsWith(text, "\"") && !EndsWith(text, ",") && !EndsWith(text, "\"")
    ensures Peel(text) == text
  {
  }

  /** The value part of an assignment after the first `=`: stripped, cut at
      the first `--` that `rsplit` leaves, stripped again and peeled. */
  function CleanValue(raw: string): (r: string)
  {
    Peel(Strip(RSplitHead(Strip(raw), "--")))
  }

  /** The effect of one line of a settings file. */
  function ParseLine(line: string): (r: LineEffect)
    ensures r.Stop? <==> line == []
    ensures r.Touch? <==> line != [] && '=' !in line
    ensures r.Skip? || r.Assign? <==> '=' in line
    ensures r.Assign? ==> !StartsWith(r.key, "--") && '=' !in r.key && '\n' !in r.key
    ensures r.Assign? ==> r.key == [] || (!IsSpace(r.key[0]) && !IsSpace(r.key[|r.key| - 1]))
  {
    if line == [] then Stop
    else if '=' !in line then Touch
    else
      RemoveCharKeeps(line, '\n', '=');
      ParseAssignment(RemoveChar(line, '\n'))
  }

  /** A line with `=` once its newlines are gone: the key is what precedes
      the first `=`, stripped; the value is everything after it. */
  function ParseAssignment(l: string): (r: LineEffect)
    requires '=' in l
    ensures r.Skip? || r.Assign?
    ensures r.Assign? ==> !StartsWith(r.key, "--") && '=' !in r.key
    ensures r.Assign? && '\n' !in l ==> '\n' !in r.key
    ensures r.Assign? ==> r.key == [] || (!IsSpace(r.key[0]) && !IsSpace(r.key[|r.key| - 1]))
  {
    var i := IndexOfChar(l, '=');
    var key := Strip(l[..i]);
    assert '=' !in key && ('\n' !in l ==> '\n' !in key) by {
      forall k | 0 <= k < |key| ensures key[k] != '=' && ('\n' !in l ==> key[k] != '\n') {
        StripInside(l[..i], k);
      }
    }
    if StartsWith(key, "--") then Skip
    else Assign(key, CleanValue(l[i + 1..]))
  }

  /** Every character of a strip comes from the stripped string. */
  lemma {:induction false} StripInside(s: string, k: int)
    requires 0 <= k < |Strip(s)|
    ensures Strip(s)[k] in s
    decreases |s|
  {
    if |s| > 0 && IsSpace(s[0]) {
      StripInside(s[1..], k);
      assert Strip(s)[k] in s[1..];
    } else if |s| > 0 && IsSpace(s[|s| - 1]) {
      StripInside(s[..|s| - 1], k);
      assert Strip(s)[k] in s[..|s| - 1];
    }
  }

  /** A value with no `--` in it, wrapped in quotes and a comma, contains no
      `--` either. */
  lemma {:induction false} QuotedHasNoDashes(text: string)
    requires !Contains(text, "--")
    ensures !Contains("\"" + text + "\",", "--")
  {
    var v := "\"" + text + "\",";
    forall k | 0 <= k < |text| ensures v[k + 1] == text[k] {
    }
    NoDashesBetween(v, text);
  }

  /** No `--` in `v` when `v` is `text` between a non-dash first character
      and two non-dash last characters. */
  lemma {:induction false} NoDashesBetween(v: string, text: string)
    requires !Contains(text, "--")
    requires |v| == |text| + 3
    requires v[0] != '-' && v[|v| - 2] != '-' && v[|v| - 1] != '-'
    requires forall k :: 0 <= k < |text| ==> v[k + 1] == text[k]
    ensures !Contains(v, "--")
  {
    var n := |text|;
    forall i | 0 <= i ensures !OccursAt(v, "--", i) {
      if i + 2 > |v| {
      } else if i == 0 {
        assert v[i..i + 2][0] == v[0];
      } else if i < n {
        assert v[i..i + 2] == text[i - 1..i + 1];
        assert !OccursAt(text, "--", i - 1);
      } else {
        assert v[i..i + 2][1] == v[i + 1];
      }
    }
  }

  /** The written form of a setting: `key = "text",` and a newline. */
  function SettingLine(key: string, text: string): string {
    key + " = \"" + text + "\",\n"
  }

  /** Reading back a written setting gives the same key and value, for any
      key that is trimmed, uncommented and free of `=` and newlines, and any
      value free of `--` and newlines; the value may hold `=`, since only the
      first `=` divides the line. */
  lemma {:induction false} SettingLineRoundTrip(key: string, text: string)
    requires key != [] && !IsSpace(key[0]) && !IsSpace(key[|key| - 1])
    requires '=' !in key && '\n' !in key && !StartsWith(key, "--")
    requires '\n' !in text && !Contains(text, "--")
    ensures ParseLine(SettingLine(key, text)) == Assign(key, text)
  {
    var body := key + " = \"" + text + "\",";
    var i := |key| + 1;
    SettingLineParts(key, text);
    RemoveTrailingNewline(body);
    IndexOfCharAt(body, '=', i);
    assert ParseLine(SettingLine(key, text)) == ParseAssignment(body);
    StripPadded([], key, " ");
    assert [] + key + " " == key + " ";
    CleanQuoted(text);
  }

  /** Where the pieces of a written setting sit. */
  lemma {:induction false} SettingLineParts(key: string, text: string)
    requires '=' !in key && '\n' !in key && '\n' !in text
    ensures SettingLine(key, text) == key + " = \"" + text + "\"," + "\n"
    ensures '\n' !in key + " = \"" + text + "\","
    ensures (key + " = \"" + text + "\",")[|key| + 1] == '='
    ensures (key + " = \"" + text + "\",")[..|key| + 1] == key + " "
    ensures '=' !in key + " "
    ensures (key + " = \"" + text + "\",")[|key| + 2..] == " " + ("\"" + text + "\",")
  {
    var body := key + " = \"" + text + "\",";
    assert body == key + " " + "=" + (" " + ("\"" + text + "\","));
  }

  /** The value part of a written setting cleans back to the text. */
  lemma {:induction false} CleanQuoted(text: string)
    requires !Contains(text, "--")
    ensures CleanValue(" " + ("\"" + text + "\",")) == text
  {
    var q := "\"" + text + "\",";
    assert " " + q == " " + q + [];
    assert q[0] == '"' && q[|q| - 1] == ',';
    StripPadded(" ", q, []);
    QuotedHasNoDashes(text);
    assert RSplitHead(q, "--") == q;
    StripOfTrimmed(q);
    PeelQuoted(text);
  }

  /** The written form of a setting followed by a comment:
      `key = "text", -- comment` and a newline. */
  function CommentedSettingLine(key: string, text: string, c: string): string {
    key + " = \"" + text + "\", -- " + c + "\n"
  }

  /** A trailing `-- comment` is cut off: the line still reads back as the
      key and the text, whatever the comment says (it may hold `=`, `"` and
      further `--`), since the written `--` is followed by a space and
      `rsplit` leaves the text before it. */
  lemma {:induction false} SettingCommentRoundTrip(key: string, text: string, c: string)
    requires key != [] && !IsSpace(key[0]) && !IsSpace(key[|key| - 1])
    requires '=' !in key && '\n' !in key && !StartsWith(key, "--")
    requires '\n' !in text && !Contains(text, "--")
    requires '\n' !in c
    ensures ParseLine(CommentedSettingLine(key, text, c)) == Assign(key, text)
  {
    var body := key + " = \"" + text + "\", -- " + c;
    var i := |key| + 1;
    CommentedLineParts(key, text, c);
    RemoveTrailingNewline(body);
    IndexOfCharAt(body, '=', i);
    assert ParseLine(CommentedSettingLine(key, text, c)) == ParseAssignment(body);
    StripPadded([], key, " ");
    assert [] + key + " " == key + " ";
    CleanCommented(text, c);
  }

  /** Where the pieces of a commented setting line sit. */
  lemma {:induction false} CommentedLineParts(key: string, text: string, c: string)
    requires '=' !in key && '\n' !in key && '\n' !in text && '\n' !in c
    ensures CommentedSettingLine(key, text, c) == key + " = \"" + text + "\", -- " + c + "\n"
    ensures '\n' !in key + " = \"" + text + "\", -- " + c
    ensures (key + " = \"" + text + "\", -- " + c)[|key| + 1] == '='
    ensures (key + " = \"" + text + "\", -- " + c)[..|key| + 1] == key + " "
    ensures '=' !in key + " "
    ensures (key + " = \"" + text + "\", -- " + c)[|key| + 2..] == " " + (("\"" + text + "\",") + (" --" + (" " + c)))
  {
    var body := key + " = \"" + text + "\", -- " + c;
    assert body == key + " " + "=" + (" " + (("\"" + text + "\",") + (" --" + (" " + c))));
  }

  /** The value part of a commented setting cleans back to the text. */
  lemma {:induction false} CleanCommented(text: string, c: string)
    requires !Contains(text, "--")
    ensures CleanValue(" " + (("\"" + text + "\",") + (" --" + (" " + c)))) == text
  {
    var q := "\"" + text + "\",";
    assert q[0] == '"' && q[|q| - 1] == ',';
    StripCommentedValue(q, c);
    var S := Strip(" " + (q + (" --" + (" " + c))));
    var t := S[|q| + 3..];
    QuotedHasNoDashes(text);
    NoDashesAppend(q, ' ');
    RSplitHeadAt(q + " ", t);
    StripPadded([], q, " ");
    assert [] + q + " " == q + " ";
    PeelQuoted(text);
  }

  /** Stripping `" <q> -- <comment>"` keeps `q`, the space and the `--`,
      and what follows them is empty or starts with a space. */
  lemma {:induction false} StripCommentedValue(q: string, c: string)
    requires q != [] && !IsSpace(q[0]) && !IsSpace(q[|q| - 1])
    ensures var S := Strip(" " + (q + (" --" + (" " + c))));
      |q| + 3 <= |S| && S == (q + " ") + "--" + S[|q| + 3..] &&
      (|S| == |q| + 3 || S[|q| + 3] == ' ')
  {
    var p := q + " --";
    var w := " " + c;
    assert " " + (q + (" --" + w)) == " " + (p + w);
    StripDropsFront(" ", p + w);
    assert p[0] == q[0] && p[|p| - 1] == '-';
    StripKeepsFront(p, w);
    var S := Strip(p + w);
    DashCutShape(q, p, S);
  }

  lemma DashCutShape(q: string, p: string, S: string)
    requires p == q + " --" && StartsWith(S, p)
    ensures S == (q + " ") + "--" + S[|p|..]
  {
    assert S == S[..|p|] + S[|p|..];
    assert " --" == " " + "--";
    ConcatAssoc(q, " ", "--");
  }

  /** Removing newlines from a line with one final newline. */
  lemma {:induction false} RemoveTrailingNewline(body: string)
    requires '\n' !in body
    ensures RemoveChar(body + "\n", '\n') == body
    decreases |body|
  {
    if body == [] {
      assert RemoveChar("\n", '\n') == RemoveChar([], '\n');
    } else {
      assert (body + "\n")[1..] == body[1..] + "\n";
      RemoveTrailingNewline(body[1..]);
    }
  }

  /** A commented-out key, `-- key = value`, sets nothing. */
  lemma {:induction false} CommentedKeyIsSkipped(key: string, rest: string)
    requires '=' !in key && '\n' !in key
    ensures ParseLine("--" + key + "=" + rest) == Skip
  {
    var line := "--" + key + "=" + rest;
    var l := RemoveChar(line, '\n');
    assert line[|key| + 2] == '=';
    RemoveCharKeeps(line, '\n', '=');
    assert l == "--" + key + "=" + RemoveChar(rest, '\n') by {
      RemoveCharAppend("--" + key + "=", rest, '\n');
    }
    var i := |key| + 2;
    assert l[..i] == "--" + key;
    assert l[i] == '=';
    IndexOfCharAt(l, '=', i);
    var key' := Strip(l[..i]);
    assert StartsWith(key', "--") by {
      StripLeadingDashes(key);
    }
  }

  /** A string that starts with `--` still does after stripping. */
  lemma {:induction false} StripLeadingDashes(key: string)
    ensures StartsWith(Strip("--" + key), "--")
    decreases |key|
  {
    var s := "--" + key;
    if |s| > 0 && IsSpace(s[|s| - 1]) {
      assert s[..|s| - 1] == "--" + key[..|key| - 1];
      StripLeadingDashes(key[..|key| - 1]);
    }
  }

  /** The assignments a file makes, in order, up to the first empty line. */
  function Assignments(lines: seq<string>): (r: seq<(string, string)>)
    ensures |r| <= |lines|
    decreases |lines|
  {
    if lines == [] then []
    else match ParseLine(lines[0])
      case Stop => []
      case Skip => Assignments(lines[1..])
      case Touch => Assignments(lines[1..])
      case Assign(k, v) => [(k, v)] + Assignments(lines[1..])
  }

  /** Whether a file records its group: some line before the first empty
      one is not a commented-out key. */
  predicate Touches(lines: seq<string>)
    decreases |lines|
  {
    lines != [] && match ParseLine(lines[0])
      case Stop => false
      case Skip => Touches(lines[1..])
      case Touch => true
      case Assign(_, _) => true
  }

  /** The value a sequence of assignments leaves for `key`: the last one
      made, or `default` when there is none. */
  function LastOr(pairs: seq<(string, string)>, key: string, default: Option<string>): (r: Option<string>)
    decreases |pairs|
  {
    if pairs == [] then default
    else if pairs[|pairs| - 1].0 == key then Some(pairs[|pairs| - 1].1)
    else LastOr(pairs[..|pairs| - 1], key, default)
  }

  predicate Assigns(pairs: seq<(string, string)>, key: string) {
    exists i :: 0 <= i < |pairs| && pairs[i].0 == key
  }

  /** The loop over one file's lines: each assignment overwrites its key in
      the group; the flag says whether the group is to be stored. */
  function ApplyLines(g: Group, lines: seq<string>): (r: (bool, Group))
    decreases |lines|
  {
    if lines == [] then (false, g)
    else match ParseLine(lines[0])
      case Stop => (false, g)
      case Skip => ApplyLines(g, lines[1..])
      case Touch => (true, ApplyLines(g, lines[1..]).1)
      case Assign(k, v) => (true, ApplyLines(g[k := v], lines[1..]).1)
  }

  function Find(g: Group, key: string): Option<string> {
    if key in g then Some(g[key]) else None
  }

  function FindIn(t: Table, group: string, key: string): Option<string> {
    if group in t then Find(t[group], key) else None
  }

  /** An assignment at the front acts first, so it is the default of the
      rest. */
  lemma {:induction false} LastOrCons(p: (string, string), pairs: seq<(string, string)>, key: string, d: Option<string>)
    ensures LastOr([p] + pairs, key, d) == LastOr(pairs, key, if p.0 == key then Some(p.1) else d)
    decreases |pairs|
  {
    if pairs != [] {
      var s := [p] + pairs;
      assert s[|s| - 1] == pairs[|pairs| - 1];
      assert s[..|s| - 1] == [p] + pairs[..|pairs| - 1];
      LastOrCons(p, pairs[..|pairs| - 1], key, d);
    }
  }

  /** Assignments in two batches act as the first batch, then the second. */
  lemma {:induction false} LastOrAppend(a: seq<(string, string)>, b: seq<(string, string)>, key: string, d: Option<string>)
    ensures LastOr(a + b, key, d) == LastOr(b, key, LastOr(a, key, d))
    decreases |b|
  {
    if b == [] {
      assert a + b == a;
    } else {
      var s := a + b;
      assert s[|s| - 1] == b[|b| - 1];
      assert s[..|s| - 1] == a + b[..|b| - 1];
      LastOrAppend(a, b[..|b| - 1], key, d);
    }
  }

  /** Once `key` is assigned, what it held before no longer matters. */
  lemma {:induction false} LastOrAssigned(pairs: seq<(string, string)>, key: string, d: Option<string>)
    requires Assigns(pairs, key)
    ensures LastOr(pairs, key, d) == LastOr(pairs, key, None) != None
    decreases |pairs|
  {
    if pairs[|pairs| - 1].0 != key {
      var i :| 0 <= i < |pairs| && pairs[i].0 == key;
      assert pairs[..|pairs| - 1][i].0 == key;
      LastOrAssigned(pairs[..|pairs| - 1], key, d);
    }
  }

  /** Without an assignment to `key`, it keeps what it held. */
  lemma {:induction false} LastOrUnassigned(pairs: seq<(string, string)>, key: string, d: Option<string>)
    requires !Assigns(pairs, key)
    ensures LastOr(pairs, key, d) == d
    decreases |pairs|
  {
    if pairs != [] {
      assert pairs[|pairs| - 1].0 != key;
      var front := pairs[..|pairs| - 1];
      assert !Assigns(front, key) by {
        forall i | 0 <= i < |front| ensures front[i].0 != key {
          assert front[i] == pairs[i];
        }
      }
      LastOrUnassigned(front, key, d);
    }
  }

  /** The line loop leaves every key at its last assignment in the file,
      and every other key as it was; the group is stored exactly when the
      file touches it. */
  lemma {:induction false} ApplyLinesLastWriter(g: Group, lines: seq<string>, key: string)
    ensures ApplyLines(g, lines).0 == Touches(lines)
    ensures Find(ApplyLines(g, lines).1, key) == LastOr(Assignments(lines), key, Find(g, key))
    decreases |lines|
  {
    if lines != [] {
      match ParseLine(lines[0])
      case Stop =>
      case Skip =>
        ApplyLinesLastWriter(g, lines[1..], key);
      case Touch =>
        ApplyLinesLastWriter(g, lines[1..], key);
      case Assign(k, v) =>
        ApplyLinesLastWriter(g[k := v], lines[1..], key);
        LastOrCons((k, v), Assignments(lines[1..]), key, Find(g, key));
    }
  }

  /** A file that does not touch its group assigns nothing. */
  lemma {:induction false} UntouchedAssignsNothing(lines: seq<string>)
    requires !Touches(lines)
    ensures Assignments(lines) == []
    decreases |lines|
  {
    if lines != [] && ParseLine(lines[0]).Skip? {
      UntouchedAssignsNothing(lines[1..]);
    }
  }

  /** The group a file feeds: the last path component of the joined path
      with its last four characters (the `.txt` or `.lua` extension)
      dropped. */
  function GroupKey(dir: string, name: string): string {
    LastComponent(DropLast(JoinPath(dir, name), 4))
  }

  /** For a plain file name of at least four characters the group is the
      name without its extension, whatever the directory. */
  lemma {:induction false} GroupKeyOfName(dir: string, name: string)
    requires '/' !in name && |name| >= 4
    ensures GroupKey(dir, name) == name[..|name| - 4]
  {
    var stem := name[..|name| - 4];
    assert name[0] != '/';
    assert !StartsWith(name, "/");
    assert '/' !in stem by {
      forall k | 0 <= k < |stem| ensures stem[k] != '/' {
        assert stem[k] == name[k];
      }
    }
    var p := JoinPath(dir, name);
    assert DropLast(p, 4) == JoinPath(dir, stem) by {
      if stem != [] {
        assert stem[0] == name[0];
      }
      if dir == [] || EndsWith(dir, "/") {
        assert (dir + name)[..|dir + name| - 4] == dir + stem;
      } else {
        assert (dir + "/" + name)[..|dir + "/" + name| - 4] == dir + "/" + stem;
      }
    }
    LastComponentOfJoin(dir, stem);
  }

  /** Loading one directory entry. */
  function LoadFile(t: Table, dir: string, e: Entry): (r: Table)
  {
    if !e.isFile then t else StoreLines(t, GroupKey(dir, e.name), e.lines)
  }

  /** One file's lines applied to the current dict of its group, which is
      stored back when the file touched it. */
  function StoreLines(t: Table, group: string, lines: seq<string>): (r: Table)
  {
    var current := if group in t then t[group] else map[];
    var applied := ApplyLines(current, lines);
    if applied.0 then t[group := applied.1] else t
  }

  /** Loading a directory's entries in `listdir` order. */
  function LoadDirectory(t: Table, dir: string, entries: seq<Entry>): (r: Table)
    decreases |entries|
  {
    if entries == [] then t
    else LoadDirectory(LoadFile(t, dir, entries[0]), dir, entries[1..])
  }

  /** The assignments a directory makes to one group, file after file. */
  function Contributions(dir: string, entries: seq<Entry>, group: string): (r: seq<(string, string)>)
    decreases |entries|
  {
    if entries == [] then []
    else FileContribution(dir, entries[0], group) + Contributions(dir, entries[1..], group)
  }

  /** The assignments one entry makes to one group. */
  function FileContribution(dir: string, e: Entry, group: string): (r: seq<(string, string)>)
  {
    if e.isFile && GroupKey(dir, e.name) == group then Assignments(e.lines) else []
  }

  /** The settings table after `populate_settings`, starting from `t`:
      the `default` directory first, then the overrides beside it. */
  function PopulateSettings(t: Table, root: string, defaults: seq<Entry>, overrides: seq<Entry>): (r: Table)
  {
    var base := JoinPath(root, "settings");
    LoadDirectory(LoadDirectory(t, JoinPath(base, "default"), defaults), base, overrides)
  }

  /** Loading a file updates its own group as its line loop does. */
  lemma {:induction false} StoreLinesOwnGroup(t: Table, group: string, lines: seq<string>, key: string)
    ensures FindIn(StoreLines(t, group, lines), group, key) == LastOr(Assignments(lines), key, FindIn(t, group, key))
  {
    var current := if group in t then t[group] else map[];
    var applied := ApplyLines(current, lines);
    ApplyLinesLastWriter(current, lines, key);
    assert Find(current, key) == FindIn(t, group, key);
    if !applied.0 {
      UntouchedAssignsNothing(lines);
    }
  }

  /** Storing one group leaves every other group alone. */
  lemma {:induction false} StoreLinesOtherGroup(t: Table, k: string, lines: seq<string>, group: string, key: string)
    requires k != group
    ensures FindIn(StoreLines(t, k, lines), group, key) == FindIn(t, group, key)
  {
  }

  /** Every setting of every group ends at the last value any file of the
      directory assigns to it, and keeps its earlier value otherwise. */
  lemma {:induction false} LoadDirectoryLastWriter(t: Table, dir: string, entries: seq<Entry>, group: string, key: string)
    ensures FindIn(LoadDirectory(t, dir, entries), group, key)
         == LastOr(Contributions(dir, entries, group), key, FindIn(t, group, key))
    decreases |entries|
  {
    if entries != [] {
      var e := entries[0];
      var mine := FileContribution(dir, e, group);
      if !e.isFile {
        assert LoadFile(t, dir, e) == t;
      } else if GroupKey(dir, e.name) == group {
        StoreLinesOwnGroup(t, group, e.lines, key);
      } else {
        StoreLinesOtherGroup(t, GroupKey(dir, e.name), e.lines, group, key);
      }
      LoadDirectoryLastWriter(LoadFile(t, dir, e), dir, entries[1..], group, key);
      LastOrAppend(mine, Contributions(dir, entries[1..], group), key, FindIn(t, group, key));
    }
  }

  /** A setting assigned in an override file takes the override's last
      value, whatever the defaults said. */
  lemma {:induction false} OverridesWin(t: Table, root: string, defaults: seq<Entry>, overrides: seq<Entry>, group: string, key: string)
    requires Assigns(Contributions(JoinPath(root, "settings"), overrides, group), key)
    ensures FindIn(PopulateSettings(t, root, defaults, overrides), group, key)
         == LastOr(Contributions(JoinPath(root, "settings"), overrides, group), key, None) != None
  {
    var base := JoinPath(root, "settings");
    var mid := LoadDirectory(t, JoinPath(base, "default"), defaults);
    LoadDirectoryLastWriter(mid, base, overrides, group, key);
    LastOrAssigned(Contributions(base, overrides, group), key, FindIn(mid, group, key));
  }

  /** A setting no override file assigns keeps the value the defaults (or
      the table before) gave it. */
  lemma {:induction false} DefaultsSurvive(t: Table, root: string, defaults: seq<Entry>, overrides: seq<Entry>, group: string, key: string)
    requires !Assigns(Contributions(JoinPath(root, "settings"), overrides, group), key)
    ensures FindIn(PopulateSettings(t, root, defaults, overrides), group, key)
         == LastOr(Contributions(JoinPath(JoinPath(root, "settings"), "default"), defaults, group), key,
                   FindIn(t, group, key))
  {
    var base := JoinPath(root, "settings");
    var mid := LoadDirectory(t, JoinPath(base, "default"), defaults);
    LoadDirectoryLastWriter(mid, base, overrides, group, key);
    LastOrUnassigned(Contributions(base, overrides, group), key, FindIn(mid, group, key));
    LoadDirectoryLastWriter(t, JoinPath(base, "default"), defaults, group, key);
  }

  /** The whole load, setting by setting: the overrides' last value, else
      the defaults' last value, else what the table held before. */
  lemma {:induction false} PopulateSettingsLastWriter(t: Table, root: string, defaults: seq<Entry>, overrides: seq<Entry>, group: string, key: string)
    ensures var base := JoinPath(root, "settings");
      FindIn(PopulateSettings(t, root, defaults, overrides), group, key)
      == LastOr(Contributions(base, overrides, group), key,
           LastOr(Contributions(JoinPath(base, "default"), defaults, group), key, FindIn(t, group, key)))
  {
    var base := JoinPath(root, "settings");
    var mid := LoadDirectory(t, JoinPath(base, "default"), defaults);
    LoadDirectoryLastWriter(mid, base, overrides, group, key);
    LoadDirectoryLastWriter(t, JoinPath(base, "default"), defaults, group, key);
  }

  /** Loading the same files a second time changes no setting. */
  lemma {:induction false} PopulateSettingsIdempotent(t: Table, root: string, defaults: seq<Entry>, overrides: seq<Entry>, group: string, key: string)
    ensures var once := PopulateSettings(t, root, defaults, overrides);
      FindIn(PopulateSettings(once, root, defaults, overrides), group, key) == FindIn(once, group, key)
  {
    var base := JoinPath(root, "settings");
    var d := Contributions(JoinPath(base, "default"), defaults, group);
    var o := Contributions(base, overrides, group);
    var once := PopulateSettings(t, root, defaults, overrides);
    PopulateSettingsLastWriter(t, root, defaults, overrides, group, key);
    PopulateSettingsLastWriter(once, root, defaults, overrides, group, key);
    var x := FindIn(t, group, key);
    var y := FindIn(once, group, key);
    if Assigns(o, key) {
      LastOrAssigned(o, key, LastOr(d, key, x));
      LastOrAssigned(o, key, LastOr(d, key, y));
    } else {
      LastOrUnassigned(o, key, LastOr(d, key, x));
      LastOrUnassigned(o, key, LastOr(d, key, y));
      if Assigns(d, key) {
        LastOrAssigned(d, key, x);
        LastOrAssigned(d, key, y);
      } else {
        LastOrUnassigned(d, key, x);
        LastOrUnassigned(d, key, y);
      }
    }
  }
}

=== FILE: sorting.dfy ===
/** Python's `list.sort()` on strings: code-point lexicographic order, with
    a proper prefix sorting first. */
module Sorting {
  /** `a <= b` for Python strings. */
  predicate Below(a: string, b: string)
    decreases |a|
  {
    a == [] || (b != [] && (a[0] < b[0] || (a[0] == b[0] && Below(a[1..], b[1..]))))
  }

  lemma {:induction false} BelowReflexive(a: string)
    ensures Below(a, a)
    decreases |a|
  {
    if a != [] {
      BelowReflexive(a[1..]);
    }
  }

  lemma {:induction false} BelowTotal(a: string, b: string)
    ensures Below(a, b) || Below(b, a)
    decreases |a|
  {
    if a != [] && b != [] && a[0] == b[0] {
      BelowTotal(a[1..], b[1..]);
    }
  }

  lemma {:induction false} BelowAntisymmetric(a: string, b: string)
    requires Below(a, b) && Below(b, a)
    ensures a == b
    decreases |a|
  {
    if a != [] {
      BelowAntisymmetric(a[1..], b[1..]);
      assert a == [a[0]] + a[1..] && b == [b[0]] + b[1..];
    }
  }

  lemma {:induction false} BelowTransitive(a: string, b: string, c: string)
    requires Below(a, b) && Below(b, c)
    ensures Below(a, c)
    decreases |a|
  {
    if a != [] && a[0] == b[0] && b[0] == c[0] {
      BelowTransitive(a[1..], b[1..], c[1..]);
    }
  }

  predicate Sorted(s: seq<string>) {
    forall i, j :: 0 <= i < j < |s| ==> Below(s[i], s[j])
  }

  /** Every element of `s` is at least `lo`. */
  predicate AllAbove(lo: string, s: seq<string>) {
    forall i :: 0 <= i < |s| ==> Below(lo, s[i])
  }

  /** Insertion of one string into a list, before the first element it
      does not exceed. */
  function Insert(x: string, s: seq<string>): (r: seq<string>)
    ensures multiset(r) == multiset(s) + multiset{x}
    decreases |s|
  {
    if s == [] then [x]
    else if Below(x, s[0]) then [x] + s
    else
      assert s == [s[0]] + s[1..];
      [s[0]] + Insert(x, s[1..])
  }

  /** Inserting into a sorted list keeps it sorted, and keeps any common
      lower bound. */
  lemma {:induction false} InsertSorted(x: string, s: seq<string>)
    requires Sorted(s)
    ensures Sorted(Insert(x, s))
    ensures forall lo :: Below(lo, x) && AllAbove(lo, s) ==> AllAbove(lo, Insert(x, s))
    decreases |s|
  {
    if s == [] {
    } else if Below(x, s[0]) {
      forall i | 0 <= i < |s| ensures Below(x, s[i]) {
        if i > 0 { BelowTransitive(x, s[0], s[i]); }
      }
      var r := Insert(x, s);
      assert r == [x] + s;
      forall lo | Below(lo, x) && AllAbove(lo, s) ensures AllAbove(lo, r) {
        assert forall i :: 0 <= i < |s| ==> r[i + 1] == s[i];
      }
    } else {
      BelowTotal(x, s[0]);
      var tail := s[1..];
      SortedTail(s);
      InsertSorted(x, tail);
      var rest := Insert(x, tail);
      assert AllAbove(s[0], tail) by {
        forall i | 0 <= i < |tail| ensures Below(s[0], tail[i]) {
          assert tail[i] == s[i + 1];
        }
      }
      assert AllAbove(s[0], rest);
      SortedCons(s[0], rest);
      forall lo | Below(lo, x) && AllAbove(lo, s) ensures AllAbove(lo, [s[0]] + rest) {
        assert AllAbove(lo, tail) by {
          forall i | 0 <= i < |tail| ensures Below(lo, tail[i]) {
            assert tail[i] == s[i + 1];
          }
        }
        AboveCons(lo, s[0], rest);
      }
    }
  }

  lemma {:induction false} SortedCons(x: string, s: seq<string>)
    requires Sorted(s) && AllAbove(x, s)
    ensures Sorted([x] + s)
  {
    var r := [x] + s;
    forall i, j | 0 <= i < j < |r| ensures Below(r[i], r[j]) {
      assert r[j] == s[j - 1];
      if i > 0 { assert r[i] == s[i - 1]; }
    }
  }

  lemma {:induction false} AboveCons(lo: string, x: string, s: seq<string>)
    requires Below(lo, x) && AllAbove(lo, s)
    ensures AllAbove(lo, [x] + s)
  {
    var r := [x] + s;
    forall i | 0 <= i < |r| ensures Below(lo, r[i]) {
      if i > 0 { assert r[i] == s[i - 1]; }
    }
  }

  /** Python's `sorted`. */
  function Sort(s: seq<string>): (r: seq<string>)
    ensures multiset(r) == multiset(s)
    decreases |s|
  {
    if s == [] then []
    else
      assert s == [s[0]] + s[1..];
      Insert(s[0], Sort(s[1..]))
  }

  lemma {:induction false} SortSorted(s: seq<string>)
    ensures Sorted(Sort(s))
    decreases |s|
  {
    if s != [] {
      SortSorted(s[1..]);
      InsertSorted(s[0], Sort(s[1..]));
    }
  }

  lemma {:induction false} TailMultiset(a: seq<string>)
    requires a != []
    ensures multiset(a[1..]) == multiset(a) - multiset{a[0]}
  {
    assert a == [a[0]] + a[1..];
  }

  /** There is only one sorted arrangement of a multiset of strings, so
      `Sort` agrees with whatever algorithm Python uses. */
  lemma {:induction false} SortedUnique(a: seq<string>, b: seq<string>)
    requires Sorted(a) && Sorted(b) && multiset(a) == multiset(b)
    ensures a == b
    decreases |a|
  {
    if a != [] {
      assert |b| == |a| by {
        assert |multiset(a)| == |a| && |multiset(b)| == |b|;
      }
      SortedHeads(a, b);
      TailMultiset(a);
      TailMultiset(b);
      SortedTail(a);
      SortedTail(b);
      SortedUnique(a[1..], b[1..]);
      assert a == [a[0]] + a[1..] && b == [b[0]] + b[1..];
    }
  }

  /** Two sorted lists with the same elements start alike. */
  lemma {:induction false} SortedHeads(a: seq<string>, b: seq<string>)
    requires Sorted(a) && Sorted(b) && multiset(a) == multiset(b) && a != [] && b != []
    ensures a[0] == b[0]
  {
    assert a[0] in multiset(b);
    assert b[0] in multiset(a);
    var i :| 0 <= i < |a| && a[i] == b[0];
    var j :| 0 <= j < |b| && b[j] == a[0];
    if i > 0 { assert Below(a[0], a[i]); } else { BelowReflexive(a[0]); }
    if j > 0 { assert Below(b[0], b[j]); } else { BelowReflexive(b[0]); }
    BelowAntisymmetric(a[0], b[0]);
  }

  lemma {:induction false} SortedTail(a: seq<string>)
    requires Sorted(a) && a != []
    ensures Sorted(a[1..])
  {
    var t := a[1..];
    forall i, j | 0 <= i < j < |t| ensures Below(t[i], t[j]) {
      assert t[i] == a[i + 1] && t[j] == a[j + 1];
    }
  }
}

=== FILE: symbols.dfy ===
/** The table of `SET @name = value` declarations that the export collects
    while it walks a fixture file. The source keeps a Python dict from the
    value's text to the variable's name; a dict remembers first-insertion
    order, and re-assigning a key updates the name in place. The table is
    therefore an association list of `(value text, name)` pairs. */
module Symbols {
  import opened Results

  type SymbolTable = seq<(string, string)>

  /** The dict's keys, in insertion order. */
  function Keys(t: SymbolTable): (r: seq<string>)
    ensures |r| == |t|
    ensures forall i :: 0 <= i < |t| ==> r[i] == t[i].0
    decreases |t|
  {
    if t == [] then [] else [t[0].0] + Keys(t[1..])
  }

  predicate DistinctKeys(t: SymbolTable) {
    forall i, j :: 0 <= i < j < |t| ==> t[i].0 != t[j].0
  }

  /** `t[key]` if present. */
  function Lookup(t: SymbolTable, key: string): (r: Option<string>)
    ensures r.Some? <==> key in Keys(t)
    ensures r.Some? ==> exists i :: 0 <= i < |t| && t[i] == (key, r.value)
    decreases |t|
  {
    if t == [] then None
    else if t[0].0 == key then Some(t[0].1)
    else
      var r := Lookup(t[1..], key);
      assert Keys(t) == [t[0].0] + Keys(t[1..]);
      r
  }

  /** `t[key] = name`: a new key goes to the end, an existing key keeps its
      position and only its name changes. */
  function Put(t: SymbolTable, key: string, name: string): (r: SymbolTable)
    ensures key in Keys(t) ==> Keys(r) == Keys(t)
    ensures key !in Keys(t) ==> r == t + [(key, name)]
    decreases |t|
  {
    if t == [] then [(key, name)]
    else if t[0].0 == key then
      var r := [(key, name)] + t[1..];
      assert Keys(r) == Keys(t);
      r
    else
      var rest := Put(t[1..], key, name);
      var r := [t[0]] + rest;
      assert Keys(t) == [t[0].0] + Keys(t[1..]);
      assert Keys(r) == [t[0].0] + Keys(rest);
      r
  }

  /** After `t[key] = name`, looking up `key` gives `name` and every other
      key reads as before. */
  lemma {:induction false} PutLookup(t: SymbolTable, key: string, name: string, k: string)
    ensures Lookup(Put(t, key, name), k) == (if k == key then Some(name) else Lookup(t, k))
    decreases |t|
  {
    if t != [] && t[0].0 != key {
      PutLookup(t[1..], key, name, k);
    }
  }

  /** A table built by `Put` never holds a key twice, like the dict it models. */
  lemma {:induction false} PutKeepsKeysDistinct(t: SymbolTable, key: string, name: string)
    requires DistinctKeys(t)
    ensures DistinctKeys(Put(t, key, name))
  {
    var r := Put(t, key, name);
    if key in Keys(t) {
      assert Keys(r) == Keys(t);
      forall i, j | 0 <= i < j < |r| ensures r[i].0 != r[j].0 {
        assert Keys(r)[i] == Keys(t)[i] && Keys(r)[j] == Keys(t)[j];
      }
    } else {
      forall i, j | 0 <= i < j < |r| ensures r[i].0 != r[j].0 {
        if j == |t| {
          assert r[i].0 == Keys(t)[i];
        }
      }
    }
  }
}

=== FILE: text.dfy ===
/** The handful of Python `str` operations the tools rely on, over
    `string = seq<char>`: `isspace`, `strip`, ASCII `lower`, `startswith`,
    `endswith`, `in`/`find`, `index`, `split(c)`, `split()`,
    `split(sep)[0]`, `rsplit(sep)[0]`, `replace(c, "")` and `join`. */
module Text {
  import opened Results

  /** Python's `str.isspace` for one character. */
  predicate IsSpace(c: char) {
    || c == ' '
    || ('\t' <= c <= '\r')
    || ('\U{1C}' <= c <= '\U{1F}')
    || c == '\U{85}'
    || c == '\U{A0}'
    || c == '\U{1680}'
    || ('\U{2000}' <= c <= '\U{200A}')
    || c == '\U{2028}'
    || c == '\U{2029}'
    || c == '\U{202F}'
    || c == '\U{205F}'
    || c == '\U{3000}'
  }

  predicate StartsWith(s: string, prefix: string) {
    |prefix| <= |s| && s[..|prefix|] == prefix
  }

  predicate EndsWith(s: string, suffix: string) {
    |suffix| <= |s| && s[|s| - |suffix|..] == suffix
  }

  /** `pattern` occurs in `s` starting at index `i`. */
  predicate OccursAt(s: string, pattern: string, i: int) {
    0 <= i && i + |pattern| <= |s| && s[i..i + |pattern|] == pattern
  }

  /** A two-character pattern occurs where its two characters do. */
  lemma {:induction false} OccursAtPair(s: string, pattern: string, i: int)
    requires |pattern| == 2
    ensures OccursAt(s, pattern, i) <==>
      0 <= i && i + 1 < |s| && s[i] == pattern[0] && s[i + 1] == pattern[1]
  {
    if 0 <= i && i + 1 < |s| {
      assert s[i..i + 2][0] == s[i] && s[i..i + 2][1] == s[i + 1];
      if s[i] == pattern[0] && s[i + 1] == pattern[1] {
        assert s[i..i + 2] == pattern;
      }
    }
  }

  /** `str.lstrip()`: drops leading whitespace. */
  function TrimStart(s: string): (r: string)
    ensures |r| <= |s| && r == s[|s| - |r|..]
    ensures r == [] || !IsSpace(r[0])
    ensures forall i :: 0 <= i < |s| - |r| ==> IsSpace(s[i])
    decreases |s|
  {
    if |s| > 0 && IsSpace(s[0]) then TrimStart(s[1..]) else s
  }

  /** `str.rstrip()`: drops trailing whitespace. */
  function TrimEnd(s: string): (r: string)
    ensures |r| <= |s| && r == s[..|r|]
    ensures r == [] || !IsSpace(r[|r| - 1])
    ensures forall i :: |r| <= i < |s| ==> IsSpace(s[i])
    decreases |s|
  {
    if |s| > 0 && IsSpace(s[|s| - 1]) then TrimEnd(s[..|s| - 1]) else s
  }

  /** `str.strip()`. */
  function Strip(s: string): (r: string)
    ensures |r| <= |s|
    ensures r == [] || (!IsSpace(r[0]) && !IsSpace(r[|r| - 1]))
    decreases |s|
  {
    if |s| > 0 && IsSpace(s[0]) then Strip(s[1..])
    else if |s| > 0 && IsSpace(s[|s| - 1]) then Strip(s[..|s| - 1])
    else s
  }

  lemma {:induction false} ConcatAssoc<T>(a: seq<T>, b: seq<T>, c: seq<T>)
    ensures a + (b + c) == (a + b) + c
  {
  }

  lemma {:induction false} TakeOfCat<T>(a: seq<T>, b: seq<T>, c: seq<T>, n: nat)
    requires |a| <= n <= |a| + |b|
    ensures (a + b + c)[..n] == a + b[..n - |a|]
  {
  }

  /** A string with no surrounding whitespace is its own strip. */
  lemma {:induction false} StripOfTrimmed(s: string)
    requires s == [] || (!IsSpace(s[0]) && !IsSpace(s[|s| - 1]))
    ensures Strip(s) == s
  {
  }

  /** Stripping removes exactly the whitespace padding around a core that
      has none of its own. */
  lemma {:induction false} StripPadded(a: string, core: string, b: string)
    requires forall i :: 0 <= i < |a| ==> IsSpace(a[i])
    requires forall i :: 0 <= i < |b| ==> IsSpace(b[i])
    requires core == [] || (!IsSpace(core[0]) && !IsSpace(core[|core| - 1]))
    ensures Strip(a + core + b) == core
  {
    StripDropsFront(a, core + b);
    assert a + core + b == a + (core + b);
    if core == [] {
      assert core + b == b;
      StripAllSpace(b);
    } else {
      StripDropsBack(core, b);
      StripOfTrimmed(core);
    }
  }

  /** Stripping a string that starts and ends with a non-space part `p`
      keeps `p` whole and cuts only into what follows it. */
  lemma {:induction false} StripKeepsFront(p: string, q: string)
    requires p != [] && !IsSpace(p[0]) && !IsSpace(p[|p| - 1])
    ensures StartsWith(Strip(p + q), p)
    ensures StartsWith(q, Strip(p + q)[|p|..])
    decreases |q|
  {
    var s := p + q;
    assert s[0] == p[0];
    if q == [] {
      assert s == p;
      StripOfTrimmed(p);
    } else if IsSpace(q[|q| - 1]) {
      assert s[|s| - 1] == q[|q| - 1];
      assert s[..|s| - 1] == p + q[..|q| - 1];
      StripKeepsFront(p, q[..|q| - 1]);
      var r := Strip(s);
      assert r == Strip(p + q[..|q| - 1]);
      assert r[|p|..] == q[..|q| - 1][..|r| - |p|];
    } else {
      assert s[|s| - 1] == q[|q| - 1];
      assert Strip(s) == s;
      assert s[|p|..] == q;
    }
  }

  /** Leading whitespace makes no difference to a strip. */
  lemma {:induction false} StripDropsFront(a: string, t: string)
    requires forall i :: 0 <= i < |a| ==> IsSpace(a[i])
    ensures Strip(a + t) == Strip(t)
    decreases |a|
  {
    if a != [] {
      assert (a + t)[0] == a[0];
      assert (a + t)[1..] == a[1..] + t;
      StripDropsFront(a[1..], t);
    } else {
      assert a + t == t;
    }
  }

  /** Trailing whitespace makes no difference to the strip of a string
      that starts with a non-space. */
  lemma {:induction false} StripDropsBack(t: string, b: string)
    requires t != [] && !IsSpace(t[0])
    requires forall i :: 0 <= i < |b| ==> IsSpace(b[i])
    ensures Strip(t + b) == Strip(t)
    decreases |b|
  {
    if b != [] {
      var s := t + b;
      assert s[0] == t[0];
      assert s[|s| - 1] == b[|b| - 1];
      assert s[..|s| - 1] == t + b[..|b| - 1];
      StripDropsBack(t, b[..|b| - 1]);
    } else {
      assert t + b == t;
    }
  }

  lemma {:induction false} StripAllSpace(b: string)
    requires forall i :: 0 <= i < |b| ==> IsSpace(b[i])
    ensures Strip(b) == []
    decreases |b|
  {
    if b != [] {
      StripAllSpace(b[1..]);
    }
  }

  /** Python's `str.lower` restricted to ASCII letters. */
  function LowerChar(c: char): char {
    if 'A' <= c <= 'Z' then (c as int + 32) as char else c
  }

  lemma {:induction false} StartsWithTrans(s: string, p: string, x: string)
    requires StartsWith(s, p) && StartsWith(p, x)
    ensures StartsWith(s, x)
  {
    assert s[..|x|] == s[..|p|][..|x|];
  }

  /** `s` starts with `prefix` once lower-cased. */
  predicate HasLowerPrefix(s: string, prefix: string)
    decreases |prefix|
  {
    prefix == [] || (s != [] && LowerChar(s[0]) == prefix[0] && HasLowerPrefix(s[1..], prefix[1..]))
  }

  lemma {:induction false} HasLowerPrefixLength(s: string, prefix: string)
    requires HasLowerPrefix(s, prefix)
    ensures |prefix| <= |s|
    decreases |prefix|
  {
    if prefix != [] {
      HasLowerPrefixLength(s[1..], prefix[1..]);
    }
  }

  /** The recursive test is `s.lower().startswith(prefix)`. */
  lemma {:induction false} HasLowerPrefixMeaning(s: string, prefix: string)
    ensures HasLowerPrefix(s, prefix) <==> StartsWith(Lower(s), prefix)
    decreases |prefix|
  {
    if prefix != [] && s != [] {
      HasLowerPrefixMeaning(s[1..], prefix[1..]);
      var l := Lower(s);
      assert l == [LowerChar(s[0])] + Lower(s[1..]);
      if |prefix| <= |s| {
        assert l[..|prefix|] == [l[0]] + Lower(s[1..])[..|prefix| - 1];
        assert prefix == [prefix[0]] + prefix[1..];
      }
    }
  }

  function Lower(s: string): (r: string)
    ensures |r| == |s|
    ensures forall i :: 0 <= i < |s| ==> r[i] == LowerChar(s[i])
    decreases |s|
  {
    if s == [] then [] else [LowerChar(s[0])] + Lower(s[1..])
  }

  /** First index at or after `from` where `pattern` occurs. */
  function IndexFrom(s: string, pattern: string, from: nat): (r: Option<nat>)
    requires from <= |s|
    ensures r.Some? ==> from <= r.value && OccursAt(s, pattern, r.value)
    ensures r.Some? ==> forall i :: from <= i < r.value ==> !OccursAt(s, pattern, i)
    ensures r.None? ==> forall i :: from <= i ==> !OccursAt(s, pattern, i)
    decreases |s| - from
  {
    if OccursAt(s, pattern, from) then Some(from)
    else if from == |s| then None
    else IndexFrom(s, pattern, from + 1)
  }

  /** `str.find`, with `None` for Python's -1: the first occurrence. */
  function IndexOf(s: string, pattern: string): (r: Option<nat>)
    ensures r.Some? ==> OccursAt(s, pattern, r.value)
    ensures r.Some? ==> forall i :: 0 <= i < r.value ==> !OccursAt(s, pattern, i)
    ensures r.None? ==> forall i :: !OccursAt(s, pattern, i)
  {
    IndexFrom(s, pattern, 0)
  }

  /** Python's `pattern in s` for strings. */
  predicate Contains(s: string, pattern: string) {
    IndexOf(s, pattern).Some?
  }

  /** Last index below `bound` where `pattern` occurs. */
  function LastIndexBelow(s: string, pattern: string, bound: nat): (r: Option<nat>)
    ensures r.Some? ==> r.value < bound && OccursAt(s, pattern, r.value)
    ensures r.Some? ==> forall i :: r.value < i < bound ==> !OccursAt(s, pattern, i)
    ensures r.None? ==> forall i :: i < bound ==> !OccursAt(s, pattern, i)
    decreases bound
  {
    if bound == 0 then None
    else if OccursAt(s, pattern, bound - 1) then Some(bound - 1)
    else LastIndexBelow(s, pattern, bound - 1)
  }

  /** `str.rfind`, with `None` for Python's -1: the last occurrence. */
  function LastIndexOf(s: string, pattern: string): (r: Option<nat>)
    ensures r.Some? ==> OccursAt(s, pattern, r.value)
    ensures r.Some? ==> forall i :: r.value < i ==> !OccursAt(s, pattern, i)
    ensures r.None? ==> forall i :: !OccursAt(s, pattern, i)
  {
    LastIndexBelow(s, pattern, |s| + 1)
  }

  /** `s.split(sep)[0]`: the text before the first occurrence of `sep`. */
  function UpTo(s: string, sep: string): (r: string)
    ensures StartsWith(s, r)
  {
    match IndexOf(s, sep)
    case None => s
    case Some(i) => s[..i]
  }

  /** `split(sep)[0]` cuts at the first occurrence. */
  lemma {:induction false} UpToAt(s: string, sep: string, k: nat)
    requires OccursAt(s, sep, k)
    requires forall i :: 0 <= i < k ==> !OccursAt(s, sep, i)
    ensures UpTo(s, sep) == s[..k]
  {
    var r := IndexOf(s, sep);
    assert r.Some?;
    assert r.value <= k;
  }

  /** `s.rsplit(sep)[0]`: Python scans from the right, cutting off
      non-overlapping occurrences of `sep`, and the head is what is left.
      On a run of dashes this differs from `split`: `"a ---b"` gives `"a -"`. */
  function RSplitHead(s: string, sep: string): (r: string)
    requires |sep| > 0
    ensures StartsWith(s, r)
    ensures !Contains(r, sep)
    ensures |r| < |s| ==> OccursAt(s, sep, |r|)
    decreases |s|
  {
    match LastIndexOf(s, sep)
    case None => s
    case Some(i) =>
      var r := RSplitHead(s[..i], sep);
      assert OccursAt(s, sep, i);
      assert |r| < i ==> OccursAt(s[..i], sep, |r|);
      assert |r| < i ==> s[..i][|r|..|r| + |sep|] == s[|r|..|r| + |sep|];
      r
  }

  /** `rsplit` cuts at an isolated `--`: when the head holds no `--` and
      does not end in `-`, and the tail does not start with `-`, the head
      is what is left. */
  lemma RSplitHeadAt(h: string, t: string)
    requires !Contains(h, "--")
    requires h == [] || h[|h| - 1] != '-'
    requires t == [] || t[0] != '-'
    ensures RSplitHead(h + "--" + t, "--") == h
  {
    var s := h + "--" + t;
    IsolatedCut(s, h, t, RSplitHead(s, "--"));
  }

  /** The only dash-free prefix of `h + "--" + t` that is the whole string
      or is followed by `--` is `h`, when that `--` is isolated. */
  lemma IsolatedCut(s: string, h: string, t: string, r: string)
    requires s == h + "--" + t
    requires !Contains(h, "--")
    requires h == [] || h[|h| - 1] != '-'
    requires t == [] || t[0] != '-'
    requires StartsWith(s, r) && !Contains(r, "--")
    requires |r| < |s| ==> OccursAt(s, "--", |r|)
    ensures r == h
  {
    assert s[|h|] == '-' && s[|h| + 1] == '-';
    assert r == s[..|r|];
    if |r| > |h| + 1 {
      assert r[|h|] == s[|h|] && r[|h| + 1] == s[|h| + 1];
      NoPairAt(r, |h|);
    } else if |r| == |h| + 1 {
      OccursAtPair(s, "--", |r|);
    } else if |r| < |h| {
      OccursAtPair(s, "--", |r|);
      if |r| + 1 < |h| {
        assert s[|r|] == h[|r|] && s[|r| + 1] == h[|r| + 1];
        NoPairAt(h, |r|);
      }
    }
    assert r == s[..|h|] == h;
  }

  /** Appending a character other than `-` creates no `--`. */
  lemma NoDashesAppend(x: string, ch: char)
    requires !Contains(x, "--") && ch != '-'
    ensures !Contains(x + [ch], "--")
  {
    var y := x + [ch];
    forall i | 0 <= i ensures !OccursAt(y, "--", i) {
      OccursAtPair(y, "--", i);
      if i + 1 < |x| {
        NoPairAt(x, i);
        assert y[i] == x[i] && y[i + 1] == x[i + 1];
      } else if i + 1 == |x| {
        assert y[i + 1] == ch;
      }
    }
    assert IndexOf(y, "--").None?;
  }

  /** A string without `--` has no two adjacent dashes. */
  lemma NoPairAt(x: string, i: int)
    requires !Contains(x, "--") && 0 <= i && i + 1 < |x|
    ensures !(x[i] == '-' && x[i + 1] == '-')
  {
    OccursAtPair(x, "--", i);
  }

  /** On a run of three dashes `rsplit` and `split` part ways: the head of
      `"a ---b"` is `"a -"` for `rsplit("--")` but `"a "` for `split("--")`. */
  lemma RSplitHeadOnDashRun()
    ensures RSplitHead("a ---b", "--") == "a -"
    ensures UpTo("a ---b", "--") == "a "
  {
    var s := "a ---b";
    OccursAtPair(s, "--", 2);
    OccursAtPair(s, "--", 3);
    var last := LastIndexOf(s, "--");
    assert last == Some(3) by {
      if last.Some? && last.value != 3 {
        OccursAtPair(s, "--", last.value);
      }
    }
    var h := s[..3];
    assert h == "a -";
    assert LastIndexOf(h, "--").None? by {
      if LastIndexOf(h, "--").Some? {
        OccursAtPair(h, "--", LastIndexOf(h, "--").value);
      }
    }
    assert IndexOf(s, "--") == Some(2) by {
      OccursAtPair(s, "--", 0);
      OccursAtPair(s, "--", 1);
    }
  }

  /** Index of the first `c` in `s`. */
  function IndexOfChar(s: string, c: char): (r: nat)
    requires c in s
    ensures r < |s| && s[r] == c && c !in s[..r]
  {
    if s[0] == c then 0
    else
      assert c in s[1..] by {
        var k :| 0 <= k < |s| && s[k] == c;
        assert s[1..][k - 1] == c;
      }
      var r := 1 + IndexOfChar(s[1..], c);
      assert s[..r] == [s[0]] + s[1..][..r - 1];
      r
  }

  /** The first `c` is at `i` when `s[i]` is `c` and none comes before. */
  lemma {:induction false} IndexOfCharAt(s: string, c: char, i: nat)
    requires i < |s| && s[i] == c && c !in s[..i]
    ensures IndexOfChar(s, c) == i
  {
    var j := IndexOfChar(s, c);
    forall k | 0 <= k < i ensures s[k] != c {
      assert s[..i][k] == s[k];
    }
    forall k | 0 <= k < j ensures s[k] != c {
      assert s[..j][k] == s[k];
    }
  }

  /** `s.split(c)` for a one-character separator: every field, in order. */
  function SplitOn(s: string, c: char): (r: seq<string>)
    ensures |r| >= 1
    ensures |r| >= 2 <==> c in s
    ensures StartsWith(s, r[0]) && c !in r[0]
    ensures |r[0]| < |s| ==> s[|r[0]|] == c
    ensures |r| >= 2 ==> StartsWith(s[|r[0]| + 1..], r[1]) && c !in r[1]
    decreases |s|
  {
    if c !in s then [s]
    else
      var i := IndexOfChar(s, c);
      [s[..i]] + SplitOn(s[i + 1..], c)
  }

  /** Splitting at the first `c` when it follows a field free of `c`. */
  lemma {:induction false} SplitOnFirst(a: string, c: char, b: string)
    requires c !in a
    ensures SplitOn(a + [c] + b, c) == [a] + SplitOn(b, c)
  {
    var s := a + [c] + b;
    forall k | 0 <= k < |a| ensures s[k] != c {
      assert s[k] == a[k];
    }
    assert s[..|a|] == a;
    IndexOfCharAt(s, c, |a|);
    assert s[|a| + 1..] == b;
  }

  /** The first field of `x + y` runs on into `y` when `x` holds no `c`. */
  lemma {:induction false} SplitOnHead(x: string, y: string, c: char)
    requires c !in x
    ensures SplitOn(x + y, c)[0] == x + SplitOn(y, c)[0]
  {
    var y1 := SplitOn(y, c)[0];
    if c in y {
      assert y == y1 + [c] + y[|y1| + 1..];
      assert x + y == (x + y1) + [c] + y[|y1| + 1..];
      SplitOnFirst(x + y1, c, y[|y1| + 1..]);
    } else {
      assert c !in x + y;
    }
  }

  /** The leading run of non-whitespace characters. */
  function TakeWord(s: string): (r: string)
    ensures StartsWith(s, r)
    ensures forall i :: 0 <= i < |r| ==> !IsSpace(r[i])
    ensures |r| < |s| ==> IsSpace(s[|r|])
    decreases |s|
  {
    if s == [] || IsSpace(s[0]) then [] else [s[0]] + TakeWord(s[1..])
  }

  /** A word ends at the first whitespace after it. */
  lemma {:induction false} TakeWordThenSpace(w: string, x: string)
    requires forall i :: 0 <= i < |w| ==> !IsSpace(w[i])
    requires x == [] || IsSpace(x[0])
    ensures TakeWord(w + x) == w
    decreases |w|
  {
    if w == [] {
      assert w + x == x;
    } else {
      assert (w + x)[0] == w[0];
      assert (w + x)[1..] == w[1..] + x;
      TakeWordThenSpace(w[1..], x);
      assert w == [w[0]] + w[1..];
    }
  }

  /** `s.split()` with no argument: the maximal runs of non-whitespace. */
  function Words(s: string): (r: seq<string>)
    decreases |s|
  {
    var t := TrimStart(s);
    if t == [] then []
    else
      var w := TakeWord(t);
      [w] + Words(t[|w|..])
  }

  /** A word followed by whitespace (or nothing) is the first word. */
  lemma {:induction false} WordsCons(w: string, x: string)
    requires w != [] && forall i :: 0 <= i < |w| ==> !IsSpace(w[i])
    requires x == [] || IsSpace(x[0])
    ensures Words(w + x) == [w] + Words(x)
  {
    var t := w + x;
    assert t[0] == w[0];
    assert TrimStart(t) == t;
    TakeWordThenSpace(w, x);
    assert t[|w|..] == x;
  }

  /** Leading whitespace does not change the words. */
  lemma {:induction false} WordsAfterSpaceChar(sp: string, x: string)
    requires |sp| == 1 && IsSpace(sp[0])
    ensures Words(sp + x) == Words(x)
  {
    assert (sp + x)[1..] == x;
    assert TrimStart(sp + x) == TrimStart(x);
  }

  /** The word after the first word and one space. */
  lemma {:induction false} SecondWord(w: string, sp: string, v: string, tail: string)
    requires w != [] && forall i :: 0 <= i < |w| ==> !IsSpace(w[i])
    requires |sp| == 1 && IsSpace(sp[0])
    requires v != [] && forall i :: 0 <= i < |v| ==> !IsSpace(v[i])
    requires tail == [] || IsSpace(tail[0])
    ensures |Words(w + (sp + (v + tail)))| >= 2 && Words(w + (sp + (v + tail)))[1] == v
  {
    assert (sp + (v + tail))[0] == sp[0];
    WordsCons(w, sp + (v + tail));
    WordsAfterSpaceChar(sp, v + tail);
    WordsCons(v, tail);
  }

  /** `s.replace(c, "")`. */
  function RemoveChar(s: string, c: char): (r: string)
    ensures c !in r
    ensures forall i :: 0 <= i < |r| ==> r[i] in s
    ensures c !in s ==> r == s
    decreases |s|
  {
    if s == [] then []
    else if s[0] == c then RemoveChar(s[1..], c)
    else [s[0]] + RemoveChar(s[1..], c)
  }

  /** `replace` distributes over concatenation. */
  lemma {:induction false} RemoveCharAppend(a: string, b: string, c: char)
    ensures RemoveChar(a + b, c) == RemoveChar(a, c) + RemoveChar(b, c)
    decreases |a|
  {
    if a != [] {
      assert (a + b)[0] == a[0];
      assert (a + b)[1..] == a[1..] + b;
      RemoveCharAppend(a[1..], b, c);
      if a[0] != c {
        ConcatAssoc([a[0]], RemoveChar(a[1..], c), RemoveChar(b, c));
      }
    } else {
      assert a + b == b;
    }
  }

  /** Removing `c` keeps every other character. */
  lemma {:induction false} RemoveCharKeeps(s: string, c: char, x: char)
    requires x != c && x in s
    ensures x in RemoveChar(s, c)
    decreases |s|
  {
    if s[0] != x {
      assert x in s[1..] by {
        var k :| 0 <= k < |s| && s[k] == x;
        assert s[1..][k - 1] == x;
      }
      RemoveCharKeeps(s[1..], c, x);
      if s[0] != c {
        assert RemoveChar(s, c) == [s[0]] + RemoveChar(s[1..], c);
      }
    } else {
      assert RemoveChar(s, c) == [s[0]] + RemoveChar(s[1..], c);
    }
  }

  /** `sep.join(parts)`. */
  function Join(sep: string, parts: seq<string>): (r: string)
    decreases |parts|
  {
    if |parts| == 0 then ""
    else if |parts| == 1 then parts[0]
    else parts[0] + sep + Join(sep, parts[1..])
  }
}
